=== FILE: README.md ===
# meilisearch-python-async: a verified model of the client core

This project models the pure, sequential logic of the `meilisearch_python_async`
client. That is everything between a caller and the HTTP wire, written as
Dafny functions over immutable values and proved correct against their
contracts.

Every server reply is an input value: an `Exchange` is a response, or the
exception the transport raised instead. An operation returns a `Trace`: the
requests it sent, in order, and what it returned or raised. Waiting for a task
(`wait_for_task`, which lives outside the modelled files) is an oracle from a
task uid to its final status. `urlencode` is an opaque encoder passed in by
the caller. The byte sizes used by automatic batching are uninterpreted
functions.

Modules, in dependency order:

- `Wrappers`: `Option` and `Result`.
- `Strings`: decimal rendering, `join`, `split`, `in`, `find`/`rfind` and clamped slicing.
- `JsonValues`: JSON values as Python sees them after `response.json()`: truthiness, dict lookup, `str()`.
- `Wire`: responses, transport faults and exchanges.
- `Errors`: the error classes, `MeiliSearchApiError` field extraction, and every `__str__` format.
- `HttpRequests`: the request wrapper. It covers body dispatch (none, raw, JSON), the misspelt default content type, and the mapping from transport exceptions to client errors.
- `Batching`: `_batch`, `_combine_documents` and `_generate_auto_batches`.
- `Timestamps`: a fixed-shape `strptime` and `_iso_to_date_time`.
- `Settings`: the pydantic settings records. It covers their camelCase serialisation and their validation from a reply body, including the errors.
- `Indexes`: the `Index` resource. It covers routes, index creation and deletion, document writes (single, in fixed batches, in automatic batches, raw file uploads), `get_documents`, and the settings endpoints.
- `Clients`: the `Client`. It covers headers, index handles, `delete_index_if_exists`, `get_or_create_index`, `get_raw_index`, `get_indexes` and `get_raw_indexes`.

## Model

| member | source | states |
|---|---|---|
| `Errors.ApiErrorFrom` | meilisearch_python_async/errors.py:24-35 | The status code is always the response's. With an empty body, code and link are empty and the message is the status error text. With a JSON object body, the code is empty exactly when the body's `code` is missing or falsy, and a string code is copied. The message and link carry their fixed prefixes. A body that is not a JSON object makes the constructor raise instead. |
| `Errors.StrNamesClass` | meilisearch_python_async/errors.py:10-52 | Every string of the MeiliSearch error family begins with the name of its own class, whatever the messages hold. So the four `__str__` formats can always be told apart. |
| `Errors.ApiErrorStr` | meilisearch_python_async/errors.py:29-38 | For a well-formed error body, `str()` of the API error is "MeiliSearchApiError." + code + " Error message: " + message + "." + " Error documentation: " + link. This holds for empty fields too, since `or ''` reads them as "". |
| `HttpRequests.BuildRequest` | meilisearch_python_async/_http_requests.py:33-42 | A falsy body (None, [], {}, "") is sent with no body and no header. A truthy body goes out unchanged: as JSON exactly when the content type is "application/json", otherwise as raw content. In both cases the request carries a Content-Type header. |
| `HttpRequests.GetRequest` | meilisearch_python_async/_http_requests.py:56-57 | A GET never carries a body. |
| `HttpRequests.Delete` | meilisearch_python_async/_http_requests.py:32-37 | A DELETE is sent, with no body, exactly when the body is falsy. A truthy body is routed to `content=`, which the transport's `delete` does not accept, so the call raises TypeError and nothing is sent. |
| `HttpRequests.DeleteRequest` | meilisearch_python_async/_http_requests.py:74-75 | The body-less DELETE every caller sends is what `delete` produces for a `None` body. |
| `HttpRequests.DeleteNeverSendsJson` | meilisearch_python_async/_http_requests.py:74-75 | DELETE inherits the misspelt default content type, so it never takes the JSON branch. It fails exactly when the body is truthy. |
| `HttpRequests.WritesWithDefaultSendJson` | meilisearch_python_async/_http_requests.py:59-72 | POST, PUT and PATCH with their default content type send every truthy body as JSON. |
| `HttpRequests.Send` | meilisearch_python_async/_http_requests.py:32-54 | The result is a response exactly when the server answered with a status below 400 or above 599, and that response comes back unchanged. Connection errors, connect timeouts and protocol errors become communication errors, never API errors. A 4xx/5xx status with an empty or JSON-object body becomes an API error carrying that status. With any other body, such as an HTML error page or a JSON list, the error's constructor raises instead. Any other HTTP error raised before a response exists becomes the generic error. Exceptions outside the HTTP family escape unchanged. |
| `Batching.Chunks` | meilisearch_python_async/index.py:2419-2422 | Empty input, and only empty input, gives no chunks. |
| `Batching.ChunkShape` | meilisearch_python_async/index.py:2419-2422 | Every chunk but the last holds exactly `size` documents, and the last holds 1 to `size`. |
| `Batching.ChunksFlatten` | meilisearch_python_async/index.py:2419-2422 | Flattening the chunks gives the input back, in order. |
| `Batching.Batch` | meilisearch_python_async/index.py:2419-2422 | A batch size of zero raises (`range` with step 0). A negative size yields nothing. A positive size yields the chunks. |
| `Batching.ChunkCount` | meilisearch_python_async/index.py:2419-2422 | There are ceil(n / size) chunks. |
| `Batching.ChunkIsRangeSlice` | meilisearch_python_async/index.py:2421-2422 | Chunk j is exactly `documents[j*size : j*size + size]`, clamped to the list, as the loop over `range(0, n, size)` slices it. |
| `Batching.FlattenAppend` | meilisearch_python_async/index.py:2432-2433 | `_combine_documents` distributes over concatenation of the batch lists. |
| `Batching.SplitGreedily` | meilisearch_python_async/index.py:2447-2465 | On success, the batches flatten to the input, no document exceeds the budget, and every batch's summed size is within the budget. Batches are closed only when the next document would reach the budget, and only the first batch can be empty. The first batch is empty exactly when the first document's size equals the budget. On failure, the error is `PayloadTooLarge` naming the first oversized document. Before raising, a greedy packing of a prefix of the documents before it was yielded. |
| `Batching.GenerateAutoBatches` | meilisearch_python_async/index.py:2436-2465 | A whole list smaller than the budget is yielded as one batch. Otherwise the input is split greedily, with the properties above. It raises exactly when the list is not small and some document exceeds the budget. |
| `Timestamps.StrpTime` | meilisearch_python_async/index.py:2481 | A successful parse of "%Y-%m-%dT%H:%M:%S.%fZ" gives a valid calendar date-time from a text of 22 to 27 characters, with a dot at position 19. |
| `Timestamps.StrpTimeOfIsoFormat` | meilisearch_python_async/index.py:2480-2481 | The text written in the format for a date-time parses back to that date-time, both directly and through the conversion. |
| `Timestamps.IsoToDateTime` | meilisearch_python_async/index.py:2468-2486 | Falsy input gives None. A date-time is returned unchanged. A text the format accepts gives its parse. A text without "." raises IndexError. Every other failure is a ValueError. This is the corrected cut: the piece after the first "." is cut to its first six characters. |
| `Timestamps.TruncatesFraction` | meilisearch_python_async/index.py:2482-2486 | A fraction of any length is read from its first six digits, without rounding. |
| `Timestamps.FractionWithoutZone` | meilisearch_python_async/index.py:2482-2486 | Without the closing "Z", a fraction of up to six digits is read as given by the corrected conversion. |
| `Timestamps.NanosecondExample` | tests/test_index.py:462 | "….563960100Z" gives 563960 microseconds, under both the as-written and the corrected definitions. |
| `Timestamps.IsoToDateTimeAsWritten` | meilisearch_python_async/index.py:2480-2486 | The code as written agrees with the corrected version on falsy input, date-times, and texts the format accepts directly. |
| `Timestamps.AsWrittenTruncatesLongFractions` | meilisearch_python_async/index.py:2483-2486 | With more than six fraction digits and the "Z", the code as written matches the corrected conversion. |
| `Timestamps.AsWrittenAgreesOnServerText` | meilisearch_python_async/index.py:2478-2486 | For every fraction of one or more digits followed by "Z", the code as written and the corrected conversion agree, and both keep the first six digits. |
| `Timestamps.AsWrittenFractionWithoutZone` | meilisearch_python_async/index.py:2484-2485 | Without the "Z", the code as written keeps `6 - len(f)` of the fraction's digits. With six digits it keeps none, and the second parse fails. |
| `Timestamps.ShortFractionExample` | meilisearch_python_async/index.py:2484-2485 | "….1234" reads as 120000 microseconds as written, and as 123400 under the corrected cut. |
| `Settings.SettingsFields` | meilisearch_python_async/models/settings.py:18-27 | The settings dict has exactly the nine camelCase aliases, in declaration order. |
| `Settings.Defaults` | meilisearch_python_async/models/settings.py:6-27 | An empty body builds the all-absent settings and the all-absent minimum word sizes. It builds a typo tolerance whose `enabled` is True and whose other fields are absent. |
| `Settings.SettingsOf` | meilisearch_python_async/index.py:1636 | A reply body that is not a JSON object cannot be unpacked into the settings record (TypeError). |
| `Settings.TypoToleranceOf` | meilisearch_python_async/index.py:2364-2367 | A reply body that is not a JSON object cannot be unpacked into the typo tolerance record (TypeError). |
| `Settings.MinWordSizeRoundTrip` | meilisearch_python_async/models/settings.py:6-8 | Serialising minimum word sizes by alias and validating the dict gives the same record. |
| `Settings.TypoToleranceRoundTrip` | meilisearch_python_async/models/settings.py:11-15 | Serialising a typo tolerance by alias (nulls kept) and validating the dict gives the same record. |
| `Settings.SettingsRoundTrip` | meilisearch_python_async/index.py:1636 | Serialising settings by alias and rebuilding them from that dict, as `get_settings` does, gives the same settings. |
| `Settings.DropNulls` | meilisearch_python_async/index.py:1681 | The update body keeps only entries of the alias dict, and none of them is null. |
| `Settings.PresentDropNulls` | meilisearch_python_async/index.py:1681 | Dropping null entries changes no key's non-null value. |
| `Settings.UpdateSettingsBodyEmpty` | meilisearch_python_async/index.py:1681-1684 | The update body is falsy, and so is sent with no body, exactly when no setting is set. |
| `Settings.UpdateSettingsBodyKeepsSetFields` | meilisearch_python_async/index.py:1681 | The update body has no null entries, and every key has the same non-null value as in the full alias dict. |
| `Settings.UpdateSettingsBodyRoundTrip` | meilisearch_python_async/index.py:1681-1684 | Rebuilding settings from the update body, with its nulls dropped, gives the same settings. |
| `Indexes.RoutesOfIndex` | meilisearch_python_async/index.py:54-58 | The documents, stats and settings routes sit under "indexes/<uid>/". Each determines the uid it was built from, and no two of them coincide. |
| `Indexes.ResourceOfSlug` | meilisearch_python_async/index.py:1731-2414 | A slug names at most one settings sub-resource, and the one it names has that slug. |
| `Indexes.SettingsRequest` | meilisearch_python_async/index.py:1731-2414 | A settings resource is read with GET, updated with POST (a truthy value as JSON) and reset with DELETE with no body. |
| `Indexes.SettingsRoute` | meilisearch_python_async/index.py:1731-2414 | A settings request's path is "<settings url>/<slug>", and the sub-resource can be read back from it. |
| `Indexes.EmptyAsNone` | meilisearch_python_async/index.py:413-416 | A falsy reply becomes None, and any other reply is kept. |
| `Indexes.DateOf` | meilisearch_python_async/index.py:52-53 | A timestamp field that is falsy gives None, and a string is converted. Any other truthy value raises TypeError. |
| `Indexes.IndexFromJson` | meilisearch_python_async/index.py:246-252 | The handle holds the record's uid and primary key and its converted timestamps. Building fails exactly when a field is missing or a timestamp cannot be converted. |
| `Indexes.DateOfRoundTrip` | meilisearch_python_async/index.py:2478-2485 | A timestamp rendered in the six-digit ISO form (`isoformat` plus "Z"), or null, reads back as itself. The conversion as written reads it the same way. |
| `Indexes.DateOfServerText` | meilisearch_python_async/index.py:2478-2485 | A timestamp string as the server writes it, with any number of fraction digits and the closing "Z", reads as its first six fraction digits. The conversion as written gives the same value. |
| `Indexes.IndexRecordRoundTrip` | meilisearch_python_async/index.py:246-252 | The handle built from the record of an index is that index. |
| `Indexes.CreatePayload` | meilisearch_python_async/index.py:235-238 | The create body always holds the uid. It holds "primaryKey" exactly when the primary key is truthy, and no other key. |
| `Indexes.Create` | meilisearch_python_async/index.py:235-252 | It posts the payload as JSON to "indexes". The index is read back at "indexes/<uid>" exactly when the post succeeded and its task was awaited. The result is then built from the record read back. A failed post raises its error with nothing else sent. |
| `Indexes.FetchInfo` | meilisearch_python_async/index.py:170-180 | It reads "indexes/<uid>". The uid is kept, and the primary key and timestamps come from the reply. |
| `Indexes.FetchInfoRoundTrip` | meilisearch_python_async/index.py:170-180 | A 200 reply carrying an index's record refreshes the handle to that index, keeping the handle's uid. |
| `Indexes.CreateRoundTrip` | meilisearch_python_async/index.py:235-252 | Once the creation task has finished, a read answered with the stored record makes `create` return exactly that index. |
| `Indexes.DeleteIfExists` | meilisearch_python_async/index.py:89-117 | It sends one DELETE with no body. It returns True exactly when the awaited task's status is "succeeded", and False for every other status. |
| `Indexes.DocumentsWriteUrl` | meilisearch_python_async/index.py:447-450 | The write route is the documents route, extended by "?" and the encoded primary key exactly when the primary key is truthy. |
| `Indexes.DocumentsRequestCarries` | meilisearch_python_async/index.py:452 | A documents write carries exactly the given documents: as JSON when there are some, and with no body when the list is empty. |
| `Indexes.WriteDocuments` | meilisearch_python_async/index.py:447-453 | `add_documents` (POST) and `update_documents` (PUT) send one request with the documents. The result is the reply's task record. |
| `Indexes.SendEachOutcome` | meilisearch_python_async/index.py:494-499 | Sequential writes succeed exactly when every reply does, and then give the task records in order. Otherwise they stop at the first failed reply and raise its error, and every earlier reply succeeded. |
| `Indexes.WriteDocumentsInBatches` | meilisearch_python_async/index.py:534-540 | A zero batch size raises before anything is sent, and a negative one sends nothing. Otherwise one write per chunk is sent, in order. |
| `Indexes.InBatchesSendsAll` | meilisearch_python_async/index.py:534-540 | Each write carries 1 to `batchSize` documents. When all succeed, the documents sent are the input in order, with one task per write. |
| `Indexes.WriteDocumentsAutoBatch` | meilisearch_python_async/index.py:494-499 | On success, the documents sent are the input in order. A small list goes out in one request. A list holding an oversized document fails. Each write of the split stays within the budget, and the first write has no body when the first document fills the budget. |
| `Indexes.DocumentsQuery` | meilisearch_python_async/index.py:402-408 | The query holds offset and limit, and the comma-joined attributes exactly when some were given. |
| `Indexes.DocumentsQueryAttributes` | meilisearch_python_async/index.py:407-408 | The attribute list can be recovered from the query by splitting at commas, when no name holds a comma. |
| `Indexes.GetDocuments` | meilisearch_python_async/index.py:410-416 | It sends a GET to the documents route with the encoded query. A falsy reply gives None, and any other reply is returned unchanged. |
| `Indexes.FileName` | meilisearch_python_async/index.py:962 | The file name is the tail of the path after its last "/", and holds no "/". |
| `Indexes.Suffix` | meilisearch_python_async/index.py:962 | The suffix is empty, or a proper tail of the file name that starts with its only dot. |
| `Indexes.SuffixInDirectory` | meilisearch_python_async/index.py:962 | Only the last path component counts: dots in the directories never make a suffix. |
| `Indexes.SuffixOfName` | meilisearch_python_async/index.py:962 | "stem.ext" has suffix ".ext", and a dot file has none. |
| `Indexes.ValidateFileType` | meilisearch_python_async/index.py:2517-2519 | Only ".json", ".csv" and ".ndjson" files pass. Every other suffix raises with the fixed message. |
| `Indexes.RawContentType` | meilisearch_python_async/index.py:962-965 | ".csv" is sent as text/csv and ".ndjson" as application/x-ndjson. Every other suffix raises ValueError. |
| `Indexes.RawUpload` | meilisearch_python_async/index.py:958-976 | A missing file raises before anything is sent, and so does a wrong suffix. Otherwise one request goes to the write route, never as JSON. A non-empty file text goes out as raw content under its content type. An empty one goes out with no body and no Content-Type, as the `if not body` branch does. |
| `Indexes.GetSettings` | meilisearch_python_async/index.py:1633-1636 | One GET, with no body, of the settings route. A reply holding the alias dump of some settings gives those settings back. A reply that is not an object raises TypeError, and a failed read raises its error. |
| `Indexes.UpdateSettings` | meilisearch_python_async/index.py:1681-1686 | One POST to the settings route. It has no body exactly when no setting is set. Otherwise its JSON body validates back into the same settings. The result is the task record. |
| `Indexes.UpdateThenGetSettings` | meilisearch_python_async/index.py:1633-1686 | Settings with nothing set are posted with no body. Any other settings go out as JSON, and a server echoing that body gives the same settings back to `get_settings`. |
| `Indexes.ResetSettings` | meilisearch_python_async/index.py:1707-1710 | It sends a DELETE with no body to the settings route. |
| `Indexes.GetSetting` | meilisearch_python_async/index.py:1731-2343 | It reads the resource with GET. Stop words, synonyms, filterable attributes and (corrected) the distinct attribute turn a falsy reply into None. The others return the reply unchanged. |
| `Indexes.GetDistinctAttributeAsWritten` | meilisearch_python_async/index.py:1818-1824 | As written, the reply is returned unchanged, an empty one included. |
| `Indexes.DistinctAttributeEmptyReply` | meilisearch_python_async/index.py:1821-1824 | An empty-string reply gives "" as written but None under the sibling getters' convention. The two agree on every truthy or null reply. |
| `Indexes.UpdateSetting` | meilisearch_python_async/index.py:1769-2390 | One POST to the resource's own route. A truthy value goes out as JSON and a falsy one with no body. The result is the task record. |
| `Indexes.ResetSetting` | meilisearch_python_async/index.py:1793-2414 | One DELETE, with no body, to the resource's own route. The result is the task record. |
| `Indexes.GetTypoTolerance` | meilisearch_python_async/index.py:2364-2367 | One GET, with no body, of the typo-tolerance route. A reply holding the alias dump of a record gives that record back. A reply that is not an object raises TypeError. |
| `Indexes.UpdateThenGetTypoTolerance` | meilisearch_python_async/index.py:2389-2390 | The full alias dict, nulls included, is posted as JSON, and a server echoing it gives the same record back. |
| `Clients.SetHeaders` | meilisearch_python_async/client.py:411-420 | The JSON content type is always the last header. The key header comes first and carries the key exactly when the key is truthy. |
| `Clients.HeadersCarryKey` | meilisearch_python_async/client.py:411-420 | Looking the headers up, the content type is JSON. The key header is the key when it is truthy and absent otherwise, so an empty key sends none. |
| `Clients.IndexHandle` | meilisearch_python_async/client.py:209 | `index(uid)` sends no request. Its handle addresses "indexes/<uid>" and holds no primary key or timestamps. |
| `Clients.GetIndex` | meilisearch_python_async/client.py:183 | It reads "indexes/<uid>" and keeps the uid. A failed read raises its error. |
| `Clients.GetIndexRoundTrip` | meilisearch_python_async/client.py:183 | A 200 reply carrying an index's record gives that index under the requested uid. |
| `Clients.DeleteIndexIfExists` | meilisearch_python_async/client.py:119-126 | It returns True exactly when the DELETE succeeded, without awaiting the task. It returns False exactly for an API error whose code is "index_not_found". Any other error, an empty code or a non-API error included, is raised again unchanged. |
| `Clients.GetOrCreateIndex` | meilisearch_python_async/client.py:283-289 | A successful get is returned and nothing is created. A create with the same uid and primary key follows exactly when the get raised an API error whose code contains "index_not_found", and its result is returned. Any other error is raised again. |
| `Clients.CodeMatchingDiffers` | meilisearch_python_async/client.py:119-289 | A code that only starts with "index_not_found" makes `delete_index_if_exists` raise, while `get_or_create_index` creates the index. |
| `Clients.GetRawIndex` | meilisearch_python_async/client.py:335-340 | The result is None exactly when the raw status is 404. No status check or error mapping takes place, so an object body is returned even with an error status, and transport exceptions escape unchanged. |
| `Clients.GetIndexes` | meilisearch_python_async/client.py:145-159 | A falsy reply gives None. Otherwise the result is one handle per element, in order, each built from the element's uid, primary key and timestamps. It succeeds exactly when every element can be read. |
| `Clients.GetRawIndexes` | meilisearch_python_async/client.py:362-367 | A falsy reply gives None. Otherwise the result is the list's records unchanged, in order, each one a JSON object. |

## Left out

- Network I/O, the `httpx.AsyncClient` lifecycle, the context manager and `aclose` are not modelled. Every reply is an input value.
- `asyncio` scheduling is not modelled. That covers `run_in_executor`, `gather`, and the concurrent sends of the directory helpers. Operations are sequential.
- `wait_for_task` and its timeout and backoff loop are not part of this model. A caller-supplied oracle gives a task's final status.
- The byte sizes of documents (`json.dumps` followed by `sys.getsizeof`) are uninterpreted functions passed in by the caller.
- The percent-encoding of `urlencode` is left out. The query string comes from an opaque encoder passed in by the caller.
- Loading documents from files and directories is left out: `aiofiles`, `DictReader`, `json.loads`, `Path.exists`, `iterdir`, `_raise_on_no_documents`, and the `*_from_file*` and `*_from_directory*` wrappers. Only the pure suffix checks are modelled. For raw uploads, whether the file exists and what it holds are inputs.
- `search` and the remaining endpoints only forward parameters, so they are left out. These are `update`, `get_primary_key`, `get_stats`, `get_document`, `delete_document(s)`, `delete_all_documents`, and the client's stats, keys, version, health and dump calls.
- The pydantic models returned by writes and raw lookups are kept as JSON objects; their fields are not checked. These are `TaskId`, `TaskStatus` and `IndexInfo`.
- pydantic's type coercions are left out. A settings value of the wrong JSON type is a validation error, and an integer is never accepted as a string.
- Floating-point JSON numbers, string escaping in `repr`, and the `__str__`/`__repr__` of `Index` are left out.
- `Index.fetch_info` mutates the handle. The model returns the updated handle instead.
- Indexes.DateOf: timestamps are read with the corrected conversion (`Timestamps.IsoToDateTime`, see Findings), not the `[:-reduce]` cut as written. The two differ only on text the direct parse rejects and the server never writes: a fraction without the closing "Z", or a malformed one such as ".12a4Z" or ".1234.5Z". On the server's own form, digits of any length then "Z", `Timestamps.AsWrittenAgreesOnServerText` and `Indexes.DateOfServerText` show the two agree.
- IndexFromJson: built with `Indexes.DateOf`, so the corrected timestamp conversion applies. A record whose timestamp the direct parse rejects is read differently from the code as written when its fraction piece is six characters or shorter. Two examples are a short fraction without the "Z" and a malformed one such as ".12a4Z".
- Indexes.Create: the index read back is built by `IndexFromJson`, with the corrected timestamp conversion.
- Indexes.FetchInfo: it converts with the corrected timestamp conversion. In the source `fetch_info` sets `primary_key` before converting the timestamps, so a conversion that raises leaves the handle with its new primary key and old timestamps. The model returns a new handle or the error and does not model that partial update.
- Clients.GetIndex: through `Indexes.FetchInfo`, the corrected timestamp conversion applies.
- GetOrCreateIndex: both the get and the create path read timestamps with the corrected conversion.
- Clients.GetIndexes: every element is built by `IndexFromJson`, with the corrected timestamp conversion.
- Indexes.Suffix: the path is not normalised the way `Path` does it, so trailing or repeated "/" are taken literally.
- Timestamps.StrpTime: only zero-padded fields are accepted, where Python's `strptime` also takes single-digit months, days and times. A letter `T` or `Z` of either case is accepted, as Python's case-insensitive matching does. Only ASCII digits are read, where the `\d` fields of Python's `strptime` also take other Unicode decimal digits.
- Exception messages: the kind of each built-in and pydantic exception is modelled (TypeError, ValueError, KeyError, IndexError, AttributeError, JSONDecodeError, ValidationError), but its message text is a stand-in. Python's own texts add detail the model drops, such as ", not int" after "must be str", the callee's name in the `**` error, the line and column of a JSON decode error, and the quotes around a KeyError's key.
- Clients.GetIndexes: every non-list reply raises one TypeError message; Python's message differs between dicts, strings and numbers.
- Clients.GetRawIndexes: as for `get_indexes`, the TypeError message for a non-list reply is simplified.
- Indexes.GetSetting: the typo-tolerance sub-resource is excluded by its precondition, because its getter validates the reply into a record. `Indexes.GetTypoTolerance` models that getter.
- Indexes.WriteDocumentsAutoBatch: it states that a list holding an oversized document fails. It does not state the converse, that every other split succeeds when all writes succeed; `Batching.GenerateAutoBatches` states that if-and-only-if for the batches.
- Errors.ApiErrorFrom: the text of the exception raised for a non-object body is simplified. The case of a body JSON cannot decode, and the message of the status-check exception, are inputs.

## Findings

| source | as written | input that shows it | evidently intended | confidence | as-written member | corrected member |
|---|---|---|---|---|---|---|
| meilisearch_python_async/index.py:1821-1822 | `if not response.json(): None` evaluates `None` without returning it, so an empty reply falls through and is returned | a reply body of `""` to `get_distinct_attribute` | return `None` for an empty reply, as the docstring says and the sibling getters do | high; not executed | `Indexes.GetDistinctAttributeAsWritten` (with `Indexes.DistinctAttributeEmptyReply`) | `Indexes.GetSetting` |
| meilisearch_python_async/index.py:2484-2485 | `split[1][:-reduce]` with `reduce = len(split[1]) - 6` keeps the first six characters only when the piece is longer than six. For shorter pieces, `-reduce` is positive and keeps `6 - len` characters. For a piece of exactly six, it keeps none. | "2021-05-11T03:12:22.1234" (no "Z") gives 120000 microseconds; "2021-05-11T03:12:22.123456" raises ValueError | cut the piece after the first "." to its first six characters, as the docstring says | medium; not executed | `Timestamps.IsoToDateTimeAsWritten` (with `Timestamps.ShortFractionExample`, `Timestamps.AsWrittenFractionWithoutZone`) | `Timestamps.IsoToDateTime` (with `Timestamps.FractionWithoutZone`, `Timestamps.TruncatesFraction`) |

=== FILE: batching.dfy ===
/** Splitting a document list for upload: fixed-size chunks, greedy batches
    under a payload-size budget, and the flattening that undoes both. The
    byte size of a document (and of the whole list) after JSON encoding is
    not modelled; it is a function the caller supplies. */
module Batching {
  import opened Wrappers
  import opened Strings
  import opened Errors

  const DefaultBatchSize := 1000
  const DefaultMaxPayloadSize := 104857600

  /** `_combine_documents`: the lists concatenated in order. */
  function Flatten<D>(groups: seq<seq<D>>): seq<D> {
    if |groups| == 0 then []
    else Flatten(groups[..|groups| - 1]) + groups[|groups| - 1]
  }

  lemma {:induction false} FlattenAppend<D>(a: seq<seq<D>>, b: seq<seq<D>>)
    ensures Flatten(a + b) == Flatten(a) + Flatten(b)
    decreases |b|
  {
    if |b| == 0 {
      assert a + b == a;
    } else {
      assert (a + b)[..|a + b| - 1] == a + b[..|b| - 1];
      FlattenAppend(a, b[..|b| - 1]);
    }
  }

  lemma FlattenSingle<D>(x: seq<D>)
    ensures Flatten([x]) == x
  {
    assert [x][..0] == [];
  }

  lemma FlattenCons<D>(x: seq<D>, rest: seq<seq<D>>)
    ensures Flatten([x] + rest) == x + Flatten(rest)
  {
    FlattenAppend([x], rest);
    assert [x][..0] == [];
  }

  /** The chunks of `_batch` for a positive size: consecutive slices of
      `size` documents, the last one holding what is left. */
  function Chunks<D>(docs: seq<D>, size: nat): (r: seq<seq<D>>)
    requires size > 0
    ensures |docs| == 0 <==> |r| == 0
    decreases |docs|
  {
    if |docs| == 0 then []
    else if |docs| <= size then [docs]
    else [docs[..size]] + Chunks(docs[size..], size)
  }

  /** Flattening the chunks gives the documents back, in order. */
  lemma {:induction false} ChunksFlatten<D>(docs: seq<D>, size: nat)
    requires size > 0
    ensures Flatten(Chunks(docs, size)) == docs
    decreases |docs|
  {
    if |docs| == 0 {
    } else if |docs| <= size {
      FlattenSingle(docs);
    } else {
      ChunksFlatten(docs[size..], size);
      FlattenCons(docs[..size], Chunks(docs[size..], size));
      assert docs[..size] + docs[size..] == docs;
    }
  }

  /** Every chunk but the last holds exactly `size` documents; the last
      holds between one and `size`. */
  lemma {:induction false} ChunkShape<D>(docs: seq<D>, size: nat)
    requires size > 0
    ensures forall i :: 0 <= i < |Chunks(docs, size)| - 1 ==> |Chunks(docs, size)[i]| == size
    ensures |Chunks(docs, size)| > 0 ==> 1 <= |Chunks(docs, size)[|Chunks(docs, size)| - 1]| <= size
    decreases |docs|
  {
    if |docs| > size {
      var rest := Chunks(docs[size..], size);
      ChunkShape(docs[size..], size);
      assert Chunks(docs, size) == [docs[..size]] + rest;
    }
  }

  /** `_batch(documents, batch_size)`: `range(0, len, batch_size)` raises for
      a zero step and is empty for a negative one. */
  function Batch<D>(docs: seq<D>, batchSize: int): (r: Result<seq<seq<D>>, Error>)
    ensures r.Failure? <==> batchSize == 0
    ensures batchSize < 0 ==> r == Success([])
    ensures batchSize > 0 ==> r == Success(Chunks(docs, batchSize))
  {
    if batchSize == 0 then Failure(Builtin(ValueError, "range() arg 3 must not be zero"))
    else if batchSize < 0 then Success([])
    else Success(Chunks(docs, batchSize))
  }

  /** There are as many chunks as `range(0, len(documents), size)` has
      steps. */
  lemma {:induction false} ChunkCount<D>(docs: seq<D>, size: nat)
    requires size > 0
    ensures |Chunks(docs, size)| == (|docs| + size - 1) / size
    decreases |docs|
  {
    if |docs| == 0 {
    } else if |docs| <= size {
      DivOne(|docs| + size - 1, size);
    } else {
      var tail := docs[size..];
      ChunkCount(tail, size);
      assert Chunks(docs, size) == [docs[..size]] + Chunks(tail, size);
      DivShift(|docs| + size - 1, size);
      assert |tail| + size - 1 == |docs| + size - 1 - size;
    }
  }

  lemma DivOne(n: int, d: int)
    requires 0 < d <= n < 2 * d
    ensures n / d == 1
  {
  }

  lemma DivShift(n: int, d: int)
    requires 0 < d <= n
    ensures n / d == (n - d) / d + 1
  {
    var q := (n - d) / d;
    var r := (n - d) % d;
    assert n - d == q * d + r;
    assert n == (q + 1) * d + r;
    DivUnique(n, d, q + 1, r);
  }

  lemma DivUnique(n: int, d: int, q: int, r: int)
    requires 0 <= r < d && n == q * d + r
    ensures n / d == q
  {
    var q' := n / d;
    var r' := n % d;
    assert n == q' * d + r';
    if q' < q {
      assert (q - q') * d == q * d - q' * d;
      MulAtLeast(q - q', d);
    } else if q' > q {
      assert (q' - q) * d == q' * d - q * d;
      MulAtLeast(q' - q, d);
    }
  }

  lemma MulAtLeast(a: int, d: int)
    requires a >= 1 && d >= 1
    ensures a * d >= d
  {
    assert a * d == (a - 1) * d + d;
    assert (a - 1) * d >= 0;
  }

  /** Chunk `j` is the slice `documents[j*size : j*size + size]` that the
      source's `range` loop takes. */
  lemma ChunkIsRangeSlice<D>(docs: seq<D>, size: nat, j: nat)
    requires size > 0
    requires j < |Chunks(docs, size)|
    ensures j * size < |docs|
    ensures Chunks(docs, size)[j] == docs[j * size .. Min(j * size + size, |docs|)]
  {
    StartIsProduct(j, size);
    ChunkAt(docs, size, j);
  }

  /** Where chunk `j` starts, counted by repeated addition. */
  function Start(j: nat, size: nat): nat {
    if j == 0 then 0 else Start(j - 1, size) + size
  }

  lemma {:induction false} StartIsProduct(j: nat, size: nat)
    ensures Start(j, size) == j * size
  {
    if j > 0 {
      StartIsProduct(j - 1, size);
      assert j * size == (j - 1) * size + size;
    }
  }

  /** The same, with the start of the slice counted by addition, so that
      the induction needs no multiplication. */
  lemma {:induction false} ChunkAt<D>(docs: seq<D>, size: nat, j: nat)
    requires size > 0
    requires j < |Chunks(docs, size)|
    ensures Start(j, size) < |docs|
    ensures Chunks(docs, size)[j] == docs[Start(j, size) .. Min(Start(j, size) + size, |docs|)]
    decreases j
  {
    if j > 0 {
      ChunksUnfold(docs, size);
      var tail := docs[size..];
      ChunkAt(tail, size, j - 1);
      var start := Start(j - 1, size);
      var end := Min(start + size, |tail|);
      assert end + size == Min(Start(j, size) + size, |docs|);
      ShiftSlice(docs, size, start, end);
      assert Chunks(docs, size)[j] == Chunks(tail, size)[j - 1];
      assert Chunks(tail, size)[j - 1] == tail[start .. end];
    } else {
      ChunksHead(docs, size);
    }
  }

  /** Every chunk holds between one and `size` documents. */
  lemma ChunkSizes<D>(docs: seq<D>, size: nat)
    requires size > 0
    ensures forall i :: 0 <= i < |Chunks(docs, size)| ==> 1 <= |Chunks(docs, size)[i]| <= size
  {
    var r := Chunks(docs, size);
    ChunkShape(docs, size);
    forall i | 0 <= i < |r| ensures 1 <= |r[i]| <= size {
      if i < |r| - 1 {
        assert |r[i]| == size;
      }
    }
  }

  /** Past the first chunk, the chunks are those of the rest. */
  lemma ChunksUnfold<D>(docs: seq<D>, size: nat)
    requires size > 0 && |Chunks(docs, size)| > 1
    ensures |docs| > size
    ensures |Chunks(docs[size..], size)| == |Chunks(docs, size)| - 1
    ensures forall j :: 0 < j < |Chunks(docs, size)| ==> Chunks(docs, size)[j] == Chunks(docs[size..], size)[j - 1]
  {
  }

  /** The first chunk is the first `size` documents, or all of them. */
  lemma ChunksHead<D>(docs: seq<D>, size: nat)
    requires size > 0 && |Chunks(docs, size)| > 0
    ensures |docs| > 0 && Chunks(docs, size)[0] == docs[..Min(size, |docs|)]
  {
  }

  /** Slicing after dropping `k` elements is slicing further along. */
  lemma ShiftSlice<D>(docs: seq<D>, k: nat, a: nat, b: nat)
    requires k <= |docs| && a <= b <= |docs| - k
    ensures docs[k..][a..b] == docs[a + k..b + k]
  {
  }

  /** The summed per-document size of a batch. */
  function SumSizes<D>(batch: seq<D>, size: D -> nat): nat {
    if |batch| == 0 then 0
    else SumSizes(batch[..|batch| - 1], size) + size(batch[|batch| - 1])
  }

  /** The message `PayloadTooLarge` is raised with. */
  function TooLargeMessage(docSize: int, maxPayloadSize: int): string {
    "Payload size " + IntToString(docSize) + " is greater than the maximum payload size of "
      + IntToString(maxPayloadSize)
  }

  /** Every batch stays within the payload budget. */
  predicate WithinBudget<D>(batches: seq<seq<D>>, maxPayloadSize: int, size: D -> nat) {
    forall k :: 0 <= k < |batches| ==> SumSizes(batches[k], size) <= maxPayloadSize
  }

  /** Only the first batch may be empty. */
  predicate EmptyOnlyFirst<D>(batches: seq<seq<D>>) {
    forall k :: 0 < k < |batches| ==> |batches[k]| > 0
  }

  /** Greedy packing: each batch was closed only because the document that
      opens the next one would have brought it to the budget or beyond. */
  predicate ClosedGreedily<D>(batches: seq<seq<D>>, maxPayloadSize: int, size: D -> nat)
    requires EmptyOnlyFirst(batches)
  {
    forall k :: 0 <= k < |batches| - 1 ==>
      SumSizes(batches[k], size) + size(batches[k + 1][0]) >= maxPayloadSize
  }

  /** The state of the splitting loop after it has looked at `docs[..i]`:
      the yielded `batches` followed by the open `batch` are exactly those
      documents, and the budget facts hold so far. */
  ghost predicate Splitting<D>(
    docs: seq<D>, i: int, batches: seq<seq<D>>, batch: seq<D>, batchSize: int,
    maxPayloadSize: int, size: D -> nat)
  {
    && 0 <= i <= |docs|
    && batchSize == SumSizes(batch, size)
    && (i == 0 ==> batch == [] && batches == [])
    && (i > 0 ==> |batch| > 0 && batchSize <= maxPayloadSize)
    && Flatten(batches) + batch == docs[..i]
    && (forall j :: 0 <= j < i ==> size(docs[j]) <= maxPayloadSize)
    && WithinBudget(batches, maxPayloadSize, size)
    && EmptyOnlyFirst(batches)
    && ClosedGreedily(batches, maxPayloadSize, size)
    && (|batches| > 0 ==> SumSizes(batches[|batches| - 1], size) + size(batch[0]) >= maxPayloadSize)
    && (|batches| > 0 && batches[0] == [] ==> size(docs[0]) == maxPayloadSize)
    && (i > 0 && size(docs[0]) == maxPayloadSize ==> |batches| > 0 && batches[0] == [])
  }

  /** Adding `docs[i]` to the open batch keeps it under the budget. */
  lemma KeepInBatch<D>(
    docs: seq<D>, i: int, batches: seq<seq<D>>, batch: seq<D>, batchSize: int,
    maxPayloadSize: int, size: D -> nat)
    requires Splitting(docs, i, batches, batch, batchSize, maxPayloadSize, size)
    requires i < |docs| && batchSize + size(docs[i]) < maxPayloadSize
    ensures Splitting(docs, i + 1, batches, batch + [docs[i]], batchSize + size(docs[i]), maxPayloadSize, size)
  {
    var next := batch + [docs[i]];
    assert next[..|next| - 1] == batch;
    assert docs[..i + 1] == docs[..i] + [docs[i]];
    if |batches| > 0 {
      assert next[0] == batch[0];
    }
    if i == 0 {
      assert size(docs[0]) < maxPayloadSize;
    }
  }

  /** `docs[i]` would bring the open batch to the budget: the open batch is
      yielded and `docs[i]` starts the next one. */
  lemma CloseBatch<D>(
    docs: seq<D>, i: int, batches: seq<seq<D>>, batch: seq<D>, batchSize: int,
    maxPayloadSize: int, size: D -> nat)
    requires Splitting(docs, i, batches, batch, batchSize, maxPayloadSize, size)
    requires i < |docs| && size(docs[i]) <= maxPayloadSize
    requires batchSize + size(docs[i]) >= maxPayloadSize
    ensures Splitting(docs, i + 1, batches + [batch], [docs[i]], size(docs[i]), maxPayloadSize, size)
  {
    var yielded := batches + [batch];
    var open := [docs[i]];
    assert open[..0] == [];
    FlattenAppend(batches, [batch]);
    assert [batch][..0] == [];
    assert docs[..i + 1] == docs[..i] + [docs[i]];
    assert EmptyOnlyFirst(yielded);
    assert ClosedGreedily(yielded, maxPayloadSize, size) by {
      forall k | 0 <= k < |yielded| - 1
        ensures SumSizes(yielded[k], size) + size(yielded[k + 1][0]) >= maxPayloadSize
      {
        if k < |batches| - 1 {
          assert yielded[k] == batches[k] && yielded[k + 1] == batches[k + 1];
        } else {
          assert yielded[k] == batches[|batches| - 1] && yielded[k + 1] == batch;
        }
      }
    }
    if i == 0 {
      assert yielded[0] == [];
    } else {
      assert yielded[0] == (if |batches| > 0 then batches[0] else batch);
    }
  }

  /** What the splitting branch produces. Without an error: the batches
      flatten back to the documents, none of which exceeds the budget, and
      they were packed greedily within it, with an empty first batch exactly
      when the first document fills the budget on its own. With an error:
      it names the first oversized document, and the batches yielded before
      it are a prefix of the documents that precede it. */
  ghost predicate SplitOutcome<D>(
    docs: seq<D>, maxPayloadSize: int, size: D -> nat, batches: seq<seq<D>>, failure: Option<Error>)
  {
    match failure
    case None =>
      && Flatten(batches) == docs
      && (forall j :: 0 <= j < |docs| ==> size(docs[j]) <= maxPayloadSize)
      && WithinBudget(batches, maxPayloadSize, size)
      && EmptyOnlyFirst(batches)
      && ClosedGreedily(batches, maxPayloadSize, size)
      && (|batches| > 0 && batches[0] == [] <==> |docs| > 0 && size(docs[0]) == maxPayloadSize)
    case Some(e) =>
      exists i :: 0 <= i < |docs| && FirstOversize(docs, maxPayloadSize, size, i) && StoppedAt(docs, maxPayloadSize, size, batches, e, i)
  }

  /** `docs[i]` is the first document larger than the budget. */
  predicate FirstOversize<D>(docs: seq<D>, maxPayloadSize: int, size: D -> nat, i: int) {
    && 0 <= i < |docs|
    && size(docs[i]) > maxPayloadSize
    && (forall j :: 0 <= j < i ==> size(docs[j]) <= maxPayloadSize)
  }

  /** The split stopped at `docs[i]` with the `PayloadTooLarge` error, after
      yielding a greedy packing of a prefix of the documents before it. */
  ghost predicate StoppedAt<D>(
    docs: seq<D>, maxPayloadSize: int, size: D -> nat, batches: seq<seq<D>>, e: Error, i: int)
    requires 0 <= i < |docs|
  {
    && e == PayloadTooLarge(TooLargeMessage(size(docs[i]), maxPayloadSize))
    && |Flatten(batches)| <= i
    && Flatten(batches) == docs[..|Flatten(batches)|]
    && WithinBudget(batches, maxPayloadSize, size)
    && EmptyOnlyFirst(batches)
    && ClosedGreedily(batches, maxPayloadSize, size)
    && (|batches| > 0 && batches[0] == [] <==> size(docs[0]) == maxPayloadSize)
  }

  /** When the loop has seen every document, yielding the open batch (if it
      holds anything) completes the split. */
  lemma FinishSplitting<D>(
    docs: seq<D>, batches: seq<seq<D>>, batch: seq<D>, batchSize: int,
    maxPayloadSize: int, size: D -> nat)
    requires Splitting(docs, |docs|, batches, batch, batchSize, maxPayloadSize, size)
    ensures SplitOutcome(docs, maxPayloadSize, size, if |batch| > 0 then batches + [batch] else batches, None)
  {
    assert docs[..|docs|] == docs;
    if |batch| > 0 {
      FlattenAppend(batches, [batch]);
      assert [batch][..0] == [];
      var all := batches + [batch];
      assert EmptyOnlyFirst(all);
      assert ClosedGreedily(all, maxPayloadSize, size) by {
        forall k | 0 <= k < |all| - 1
          ensures SumSizes(all[k], size) + size(all[k + 1][0]) >= maxPayloadSize
        {
          if k < |batches| - 1 {
            assert all[k] == batches[k] && all[k + 1] == batches[k + 1];
          }
        }
      }
      assert all[0] == (if |batches| > 0 then batches[0] else batch);
    }
  }

  /** An oversized `docs[i]` stops the loop: the batches yielded so far are
      a prefix of the documents before it. */
  lemma StopAtOversize<D>(
    docs: seq<D>, i: int, batches: seq<seq<D>>, batch: seq<D>, batchSize: int,
    maxPayloadSize: int, size: D -> nat)
    requires Splitting(docs, i, batches, batch, batchSize, maxPayloadSize, size)
    requires i < |docs| && size(docs[i]) > maxPayloadSize
    ensures SplitOutcome(docs, maxPayloadSize, size, batches,
      Some(PayloadTooLarge(TooLargeMessage(size(docs[i]), maxPayloadSize))))
  {
    assert docs[..i][..|Flatten(batches)|] == Flatten(batches);
    if i == 0 {
      assert size(docs[0]) != maxPayloadSize;
    }
    assert FirstOversize(docs, maxPayloadSize, size, i);
    assert StoppedAt(docs, maxPayloadSize, size, batches,
      PayloadTooLarge(TooLargeMessage(size(docs[i]), maxPayloadSize)), i);
  }

  /** The splitting loop of `_generate_auto_batches`: documents are added
      greedily; a document that would bring the running size to the budget
      or beyond closes the batch before it and opens the next one; a single
      document larger than the budget raises `PayloadTooLarge` after the
      batches before it were yielded. */
  method SplitGreedily<D>(docs: seq<D>, maxPayloadSize: int, size: D -> nat)
    returns (batches: seq<seq<D>>, failure: Option<Error>)
    ensures SplitOutcome(docs, maxPayloadSize, size, batches, failure)
  {
    batches := [];
    failure := None;
    var batch: seq<D> := [];
    var batchSize: int := 0;
    var i := 0;
    while i < |docs|
      invariant Splitting(docs, i, batches, batch, batchSize, maxPayloadSize, size)
    {
      var doc := docs[i];
      var docSize := size(doc);
      if docSize > maxPayloadSize {
        StopAtOversize(docs, i, batches, batch, batchSize, maxPayloadSize, size);
        failure := Some(PayloadTooLarge(TooLargeMessage(docSize, maxPayloadSize)));
        return;
      }
      batches, batch, batchSize := Place(docs, i, batches, batch, batchSize, maxPayloadSize, size);
      i := i + 1;
    }
    FinishSplitting(docs, batches, batch, batchSize, maxPayloadSize, size);
    if |batch| > 0 {
      batches := batches + [batch];
    }
  }

  /** One step of the split for a document within the budget: when it
      would bring the open batch to the budget or beyond, the batch is
      closed and the document opens the next one; otherwise it joins the
      open batch. */
  method Place<D>(
    docs: seq<D>, i: int, batches: seq<seq<D>>, batch: seq<D>, batchSize: int,
    maxPayloadSize: int, size: D -> nat)
    returns (batches': seq<seq<D>>, batch': seq<D>, batchSize': int)
    requires Splitting(docs, i, batches, batch, batchSize, maxPayloadSize, size)
    requires i < |docs| && size(docs[i]) <= maxPayloadSize
    ensures Splitting(docs, i + 1, batches', batch', batchSize', maxPayloadSize, size)
    ensures batchSize + size(docs[i]) >= maxPayloadSize ==> batches' == batches + [batch] && batch' == [docs[i]]
    ensures batchSize + size(docs[i]) < maxPayloadSize ==> batches' == batches && batch' == batch + [docs[i]]
  {
    var doc := docs[i];
    var docSize := size(doc);
    if batchSize + docSize >= maxPayloadSize {
      CloseBatch(docs, i, batches, batch, batchSize, maxPayloadSize, size);
      batches', batch', batchSize' := batches + [batch], [doc], docSize;
    } else {
      KeepInBatch(docs, i, batches, batch, batchSize, maxPayloadSize, size);
      batches', batch', batchSize' := batches, batch + [doc], batchSize + docSize;
    }
  }

  /** `_generate_auto_batches`. When the whole list is smaller than the
      budget it is yielded as one batch; otherwise it is split greedily.
      When the very first document is exactly as large as the budget, the
      first batch yielded is empty.

      `batches` are the batches yielded, in order; `failure` is the error
      raised after them, if any. */
  method GenerateAutoBatches<D>(docs: seq<D>, maxPayloadSize: int, size: D -> nat, listSize: seq<D> -> nat)
    returns (batches: seq<seq<D>>, failure: Option<Error>)
    ensures listSize(docs) < maxPayloadSize ==> batches == [docs] && failure == None
    ensures failure.None? ==> Flatten(batches) == docs
    ensures failure.None? <==>
      listSize(docs) < maxPayloadSize || forall j :: 0 <= j < |docs| ==> size(docs[j]) <= maxPayloadSize
    ensures failure.Some? ==> exists i ::
      FirstOversize(docs, maxPayloadSize, size, i) && StoppedAt(docs, maxPayloadSize, size, batches, failure.value, i)
    ensures listSize(docs) >= maxPayloadSize ==>
      && WithinBudget(batches, maxPayloadSize, size)
      && EmptyOnlyFirst(batches)
      && ClosedGreedily(batches, maxPayloadSize, size)
      && (|batches| > 0 && batches[0] == [] <==> |docs| > 0 && size(docs[0]) == maxPayloadSize)
  {
    if listSize(docs) < maxPayloadSize {
      FlattenSingle(docs);
      return [docs], None;
    }
    batches, failure := SplitGreedily(docs, maxPayloadSize, size);
  }
}

=== FILE: clients.dfy ===
/** The `Client`: the headers every request carries, index handles, and the
    operations that branch on what the server answered (delete if it
    exists, get or create, raw lookups that bypass the error mapping). */
module Clients {
  import opened Wrappers
  import opened Strings
  import opened JsonValues
  import opened Wire
  import opened Errors
  import opened HttpRequests
  import opened Indexes

  const ApiKeyHeader := "X-Meili-Api-Key"
  const ContentTypeHeader := "Content-Type"

  /** The headers the HTTP client is created with: the key header first
      when the key is truthy, then the JSON content type. */
  function SetHeaders(apiKey: Option<string>): (r: seq<(string, string)>)
    ensures 1 <= |r| <= 2
    ensures r[|r| - 1] == (ContentTypeHeader, JsonContentType)
    ensures |r| == 2 <==> apiKey.Some? && apiKey.value != ""
    ensures |r| == 2 ==> r[0] == (ApiKeyHeader, apiKey.value)
  {
    if apiKey.Some? && apiKey.value != "" then [(ApiKeyHeader, apiKey.value), (ContentTypeHeader, JsonContentType)]
    else [(ContentTypeHeader, JsonContentType)]
  }

  /** The value of a header, the last one winning. */
  function HeaderValue(headers: seq<(string, string)>, name: string): (r: Option<string>)
    ensures r.Some? <==> exists i :: 0 <= i < |headers| && headers[i].0 == name
    ensures r.Some? ==> exists i :: 0 <= i < |headers| && headers[i] == (name, r.value)
  {
    if |headers| == 0 then None
    else if headers[|headers| - 1].0 == name then Some(headers[|headers| - 1].1)
    else
      var r := HeaderValue(headers[..|headers| - 1], name);
      assert forall i :: 0 <= i < |headers| - 1 ==> headers[..|headers| - 1][i] == headers[i];
      r
  }

  /** The content type is always JSON, and the key header is present
      exactly when the key is truthy, carrying the key: an empty key sends
      no key header at all. */
  lemma HeadersCarryKey(apiKey: Option<string>)
    ensures HeaderValue(SetHeaders(apiKey), ContentTypeHeader) == Some(JsonContentType)
    ensures HeaderValue(SetHeaders(apiKey), ApiKeyHeader) ==
      (if apiKey.Some? && apiKey.value != "" then Some(apiKey.value) else None)
  {
    var h := SetHeaders(apiKey);
    assert ApiKeyHeader != ContentTypeHeader;
    if |h| == 2 {
      assert h[..1] == [(ApiKeyHeader, apiKey.value)];
    }
  }

  /** `Client.index`: a local handle holding only the uid; no request is
      sent. */
  function IndexHandle(uid: string): (t: Trace<Index>)
    ensures t.sent == [] && t.result.Success?
    ensures UidUrl(t.result.value.uid) == "indexes/" + uid
    ensures t.result.value.primaryKey == JNull
    ensures t.result.value.createdAt.None? && t.result.value.updatedAt.None?
  {
    Trace([], Success(Index(JStr(uid), JNull, None, None)))
  }

  /** `Client.get_index`: fetch the information of the handle on `uid`. */
  function GetIndex(uid: string, ex: Exchange): (t: Trace<Index>)
    ensures t.sent == [GetRequest("indexes/" + uid)]
    ensures t.result.Success? ==> t.result.value.uid == JStr(uid)
    ensures ReadBody(ex).Failure? ==> t.result == Failure(ReadBody(ex).error)
  {
    FetchInfo(IndexHandle(uid).result.value, ex)
  }

  /** Given the stored record of an index, `get_index` returns that index
      under the requested uid. */
  lemma GetIndexRoundTrip(uid: string, stored: Index)
    requires ValidDates(stored)
    ensures GetIndex(uid, Ok(IndexRecord(stored))).result == Success(stored.(uid := JStr(uid)))
  {
    FetchInfoRoundTrip(IndexHandle(uid).result.value, stored);
  }

  /** The error is an API error carrying exactly the code
      "index_not_found". */
  predicate IsIndexNotFound(e: Error) {
    e.MeiliSearchApiError? && e.code == IndexNotFound
  }

  /** `Client.delete_index_if_exists`: true as soon as the DELETE succeeds
      (the task is not awaited); false only for an API error whose code is
      exactly "index_not_found"; every other error is raised again. */
  function DeleteIndexIfExists(uid: string, ex: Exchange): (t: Trace<bool>)
    ensures t.sent == [DeleteRequest("indexes/" + uid)]
    ensures t.result == Success(true) <==> Send(ex).Success?
    ensures t.result == Success(false) <==> Send(ex).Failure? && IsIndexNotFound(Send(ex).error)
    ensures t.result.Failure? <==> Send(ex).Failure? && !IsIndexNotFound(Send(ex).error)
    ensures t.result.Failure? ==> t.result.error == Send(ex).error
  {
    var result := match Send(ex)
      case Success(_) => Success(true)
      case Failure(e) =>
        if e.MeiliSearchApiError? then
          if e.code != IndexNotFound then Failure(e) else Success(false)
        else Failure(e);
    Trace([DeleteRequest("indexes/" + uid)], result)
  }

  /** The API error `get_or_create_index` treats as a missing index: its
      code contains "index_not_found". */
  predicate MentionsIndexNotFound(e: Error) {
    e.MeiliSearchApiError? && IsSubstring(IndexNotFound, e.code)
  }

  /** `Client.get_or_create_index`: a successful get is returned as it is;
      an API error whose code contains "index_not_found" leads to a create
      with the same uid and primary key; any other error is raised again. */
  function GetOrCreateIndex(
    uid: string, pk: Option<string>, got: Exchange, posted: Exchange, wait: TaskWaiter, fetched: Exchange): (t: Trace<Index>)
    ensures |t.sent| >= 1 && t.sent[0] == GetRequest("indexes/" + uid)
    ensures GetIndex(uid, got).result.Success? ==> t == GetIndex(uid, got)
    ensures |t.sent| > 1 <==> GetIndex(uid, got).result.Failure? && MentionsIndexNotFound(GetIndex(uid, got).result.error)
    ensures |t.sent| > 1 ==>
      && t.sent[1..] == Create(uid, pk, posted, wait, fetched).sent
      && t.sent[1].body == JsonPayload(CreatePayload(uid, pk))
      && t.result == Create(uid, pk, posted, wait, fetched).result
    ensures |t.sent| == 1 && t.result.Failure? ==> t.result == GetIndex(uid, got).result
  {
    var g := GetIndex(uid, got);
    match g.result
    case Success(_) => g
    case Failure(e) =>
      if e.MeiliSearchApiError? && IsSubstring(IndexNotFound, e.code) then
        var c := Create(uid, pk, posted, wait, fetched);
        Trace(g.sent + c.sent, c.result)
      else g
  }

  lemma PrefixIsSubstring(sub: string, rest: string)
    ensures IsSubstring(sub, sub + rest)
  {
    assert (sub + rest)[..|sub|] == sub;
  }

  /** The two operations read the same error code differently: a code that
      only starts with "index_not_found" makes `delete_index_if_exists`
      raise, while `get_or_create_index` creates the index. */
  lemma CodeMatchingDiffers(uid: string, pk: Option<string>, status: int, extra: string, statusText: string,
                            posted: Exchange, wait: TaskWaiter, fetched: Exchange)
    requires IsErrorStatus(status) && extra != ""
    ensures var body := JObj([("code", JStr(IndexNotFound + extra))]);
      var ex := Responded(Response(status, JsonText(body)), statusText);
      && DeleteIndexIfExists(uid, ex).result.Failure?
      && |GetOrCreateIndex(uid, pk, ex, posted, wait, fetched).sent| > 1
  {
    var body := JObj([("code", JStr(IndexNotFound + extra))]);
    var ex := Responded(Response(status, JsonText(body)), statusText);
    var e := ApiErrorFrom(statusText, Response(status, JsonText(body)));
    assert Get(body, "code") == Some(JStr(IndexNotFound + extra));
    assert e.code == IndexNotFound + extra;
    PrefixIsSubstring(IndexNotFound, extra);
    assert GetIndex(uid, ex).result == Failure(e);
  }

  /** `Client.get_raw_index`: the HTTP client is called directly, so no
      status check and no error mapping take place. A 404 gives `None`;
      any other reply, an error status included, must hold an index record
      object. */
  function GetRawIndex(uid: string, ex: Exchange): (t: Trace<Json>)
    ensures t.sent == [GetRequest("indexes/" + uid)]
    ensures t.result == Success(JNull) <==> ex.Responded? && ex.response.status == 404
    ensures ex.Failed? ==> t.result == Failure(TransportError(ex.fault))
    ensures ex.Responded? && ex.response.status != 404 && ex.response.content.JsonText? && ex.response.content.value.JObj? ==>
      t.result == Success(ex.response.content.value)
    ensures t.result.Success? && t.result.value != JNull ==> t.result.value.JObj?
  {
    var result := match ex
      case Failed(f) => Failure(TransportError(f))
      case Responded(resp, _) =>
        if resp.status == 404 then Success(JNull)
        else
          var body :- JsonOf(resp);
          if body.JObj? then Success(body) else Failure(Builtin(TypeError, "argument after ** must be a mapping"));
    Trace([GetRequest("indexes/" + uid)], result)
  }

  /** `f` applied to each element in order, stopping at the first failure. */
  function MapResults<A, B>(items: seq<A>, f: A -> Result<B, Error>): (r: Result<seq<B>, Error>)
    ensures r.Success? <==> forall i :: 0 <= i < |items| ==> f(items[i]).Success?
    ensures r.Success? ==> |r.value| == |items| && forall i :: 0 <= i < |items| ==> f(items[i]) == Success(r.value[i])
  {
    if |items| == 0 then Success([])
    else
      var first :- f(items[0]);
      var rest :- MapResults(items[1..], f);
      assert forall i :: 1 <= i < |items| ==> items[1..][i - 1] == items[i];
      Success([first] + rest)
  }

  /** `Index(...)` for each element of the list, in order, stopping at the
      first element that cannot be read. */
  function IndexesFromItems(items: seq<Json>): (r: Result<seq<Index>, Error>)
    ensures r.Success? <==> forall i :: 0 <= i < |items| ==> IndexFromJson(items[i]).Success?
    ensures r.Success? ==> |r.value| == |items| && forall i :: 0 <= i < |items| ==> IndexFromJson(items[i]) == Success(r.value[i])
  {
    MapResults(items, IndexFromJson)
  }

  /** Iterating a reply that is not a list: a dict or a string yields keys
      or characters that cannot be subscripted by name, and other values
      cannot be iterated. */
  const NotAListError := Builtin(TypeError, "string indices must be integers")

  /** `Client.get_indexes`: `None` for an empty reply, otherwise one handle
      per element of the list, in order. */
  function GetIndexes(ex: Exchange): (t: Trace<Option<seq<Index>>>)
    ensures t.sent == [GetRequest(IndexesRoute)]
    ensures ReadBody(ex).Success? && !Truthy(ReadBody(ex).value) ==> t.result == Success(None)
    ensures t.result.Success? && t.result.value.Some? ==>
      && ReadBody(ex).Success? && ReadBody(ex).value.JArr?
      && var items := ReadBody(ex).value.items;
      && |t.result.value.value| == |items| > 0
      && forall i :: 0 <= i < |items| ==> IndexFromJson(items[i]) == Success(t.result.value.value[i])
    ensures ReadBody(ex).Success? && ReadBody(ex).value.JArr? && |ReadBody(ex).value.items| > 0 ==>
      (t.result.Success? <==> forall i :: 0 <= i < |ReadBody(ex).value.items| ==> IndexFromJson(ReadBody(ex).value.items[i]).Success?)
    ensures ReadBody(ex).Failure? ==> t.result == Failure(ReadBody(ex).error)
  {
    var result :=
      var body :- ReadBody(ex);
      if !Truthy(body) then Success(None)
      else if !body.JArr? then Failure(NotAListError)
      else
        var indexes :- IndexesFromItems(body.items);
        Success(Some(indexes));
    Trace([GetRequest(IndexesRoute)], result)
  }

  /** `IndexInfo(**x)` for each element, in order. */
  function RecordsFromItems(items: seq<Json>): (r: Result<seq<Json>, Error>)
    ensures r.Success? <==> forall i :: 0 <= i < |items| ==> items[i].JObj?
    ensures r.Success? ==> r.value == items
  {
    if |items| == 0 then Success([])
    else if !items[0].JObj? then Failure(Builtin(TypeError, "argument after ** must be a mapping"))
    else
      var rest :- RecordsFromItems(items[1..]);
      assert items == [items[0]] + items[1..];
      Success([items[0]] + rest)
  }

  /** `Client.get_raw_indexes`: `None` for an empty reply, otherwise one
      record per element of the list, in order. */
  function GetRawIndexes(ex: Exchange): (t: Trace<Option<seq<Json>>>)
    ensures t.sent == [GetRequest(IndexesRoute)]
    ensures ReadBody(ex).Success? && !Truthy(ReadBody(ex).value) ==> t.result == Success(None)
    ensures t.result.Success? && t.result.value.Some? ==>
      ReadBody(ex).Success? && ReadBody(ex).value == JArr(t.result.value.value) && |t.result.value.value| > 0
    ensures ReadBody(ex).Failure? ==> t.result == Failure(ReadBody(ex).error)
  {
    var result :=
      var body :- ReadBody(ex);
      if !Truthy(body) then Success(None)
      else if !body.JArr? then Failure(NotAListError)
      else
        var records :- RecordsFromItems(body.items);
        Success(Some(records));
    Trace([GetRequest(IndexesRoute)], result)
  }
}

=== FILE: errors.dfy ===
/** The exceptions the client raises, as one datatype. Four of them belong to
    the `MeiliSearchError` family (the generic error, the API error, the
    communication error and the timeout error); `InvalidDocumentError` and
    `PayloadTooLarge` derive directly from `Exception`. Two further variants
    stand for exceptions the client lets through untouched: a transport
    exception nobody caught, and a Python built-in error (a missing key, a
    malformed value, an undecodable body). */
module Errors {
  import opened Wrappers
  import opened Strings
  import opened JsonValues
  import opened Wire

  datatype BuiltinKind =
    | KeyError
    | ValueError
    | IndexError
    | TypeError
    | AttributeError
    | JsonDecodeError
    | ValidationError

  datatype Error =
    | InvalidDocumentError(text: string)
    | MeiliSearchError(message: string)
    | MeiliSearchApiError(statusCode: int, code: string, message: string, link: string)
    | MeiliSearchCommunicationError(message: string)
    | MeiliSearchTimeoutError(message: string)
    | PayloadTooLarge(text: string)
    | TransportError(fault: Fault)
    | Builtin(kind: BuiltinKind, text: string)

  const IndexNotFound := "index_not_found"

  /** `isinstance(e, MeiliSearchError)`. */
  predicate IsMeiliSearchError(e: Error) {
    || e.MeiliSearchError?
    || e.MeiliSearchApiError?
    || e.MeiliSearchCommunicationError?
    || e.MeiliSearchTimeoutError?
  }

  /** The Python class name of the error (the Meili family and the two
      `Exception` subclasses). */
  function ClassName(e: Error): string {
    match e
    case InvalidDocumentError(_) => "InvalidDocumentError"
    case MeiliSearchError(_) => "MeiliSearchError"
    case MeiliSearchApiError(_, _, _, _) => "MeiliSearchApiError"
    case MeiliSearchCommunicationError(_) => "MeiliSearchCommunicationError"
    case MeiliSearchTimeoutError(_) => "MeiliSearchTimeoutError"
    case PayloadTooLarge(_) => "PayloadTooLarge"
    case TransportError(_) => "HTTPError"
    case Builtin(_, _) => "Exception"
  }

  /** `str(e)`. The two plain `Exception` subclasses show the text they were
      raised with. */
  function Str(e: Error): string {
    match e
    case InvalidDocumentError(t) => t
    case MeiliSearchError(m) => "MeiliSearchError. Error message: " + m + "."
    case MeiliSearchApiError(_, code, m, link) => "MeiliSearchApiError." + code + m + link
    case MeiliSearchCommunicationError(m) => "MeiliSearchCommunicationError, " + m
    case MeiliSearchTimeoutError(m) => "MeiliSearchTimeoutError, " + m
    case PayloadTooLarge(t) => t
    case TransportError(f) => f.text
    case Builtin(_, t) => t
  }

  predicate StartsWith(s: string, prefix: string) {
    |prefix| <= |s| && s[..|prefix|] == prefix
  }

  /** Reads back which MeiliSearch error class produced a string of `Str`. */
  function ClassOfStr(s: string): Option<string> {
    if StartsWith(s, "MeiliSearchError.") then Some("MeiliSearchError")
    else if StartsWith(s, "MeiliSearchApiError.") then Some("MeiliSearchApiError")
    else if StartsWith(s, "MeiliSearchCommunicationError, ") then Some("MeiliSearchCommunicationError")
    else if StartsWith(s, "MeiliSearchTimeoutError, ") then Some("MeiliSearchTimeoutError")
    else None
  }

  /** Every MeiliSearch error string begins with its own class name, and the
      four formats can be told apart whatever the messages hold. */
  lemma StrNamesClass(e: Error)
    requires IsMeiliSearchError(e)
    ensures ClassOfStr(Str(e)) == Some(ClassName(e))
  {
    var s := Str(e);
    match e
    case MeiliSearchError(m) =>
      assert s[..17] == "MeiliSearchError.";
    case MeiliSearchApiError(_, code, m, link) =>
      DiffersAt(s, "MeiliSearchError.", 11);
      assert s[..20] == "MeiliSearchApiError.";
    case MeiliSearchCommunicationError(m) =>
      DiffersAt(s, "MeiliSearchError.", 11);
      DiffersAt(s, "MeiliSearchApiError.", 11);
      assert s[..31] == "MeiliSearchCommunicationError, ";
    case MeiliSearchTimeoutError(m) =>
      DiffersAt(s, "MeiliSearchError.", 11);
      DiffersAt(s, "MeiliSearchApiError.", 11);
      DiffersAt(s, "MeiliSearchCommunicationError, ", 11);
      assert s[..25] == "MeiliSearchTimeoutError, ";
  }

  /** A string that differs from `prefix` at some position does not start
      with it. */
  lemma DiffersAt(s: string, prefix: string, i: nat)
    requires i < |prefix| && i < |s| && s[i] != prefix[i]
    ensures !StartsWith(s, prefix)
  {
    assert |prefix| <= |s| ==> s[..|prefix|][i] == s[i];
  }

  /** `f"{body.get(key) or ''}"`: a missing or falsy value shows as "". */
  function FieldText(body: Json, key: string): string {
    match Get(body, key)
    case None => ""
    case Some(v) => if Truthy(v) then PyStr(v) else ""
  }

  /** A body from which `MeiliSearchApiError` can read its fields: empty, or
      a JSON object. */
  predicate ReadableErrorBody(resp: Response) {
    resp.content.Empty? || (resp.content.JsonText? && resp.content.value.JObj?)
  }

  /** `MeiliSearchApiError(error, response)`. With an empty body the code and
      link are empty and the message is the text of the status exception;
      otherwise code, message and link come from the JSON error body. A body
      that is not JSON, or is JSON but not an object, makes the constructor
      itself raise. */
  function ApiErrorFrom(errorText: string, resp: Response): (r: Error)
    ensures r.MeiliSearchApiError? <==> ReadableErrorBody(resp)
    ensures r.MeiliSearchApiError? ==> r.statusCode == resp.status
    ensures resp.content.Empty? ==> r.code == "" && r.link == "" && r.message == errorText
    ensures ReadableErrorBody(resp) && resp.content.JsonText? ==>
      var body := resp.content.value;
      && (r.code == "" <==> (Get(body, "code").None? || !Truthy(Get(body, "code").value)))
      && (forall c :: Get(body, "code") == Some(JStr(c)) ==> r.code == c)
      && StartsWith(r.message, " Error message: ")
      && StartsWith(r.link, " Error documentation: ")
    ensures !ReadableErrorBody(resp) ==> r.Builtin?
  {
    match resp.content
    case Empty => MeiliSearchApiError(resp.status, "", errorText, "")
    case NotJson(_) => Builtin(JsonDecodeError, "Expecting value")
    case JsonText(body) =>
      if !body.JObj? then Builtin(AttributeError, "object has no attribute 'get'")
      else
        var code := FieldText(body, "code");
        assert code == "" <==> (Get(body, "code").None? || !Truthy(Get(body, "code").value)) by {
          if Get(body, "code").Some? && Truthy(Get(body, "code").value) {
            PyStrOfTruthyNonEmpty(Get(body, "code").value);
          }
        }
        MeiliSearchApiError(
          resp.status,
          code,
          " Error message: " + FieldText(body, "message") + ".",
          " Error documentation: " + FieldText(body, "link"))
  }

  /** Rendering a truthy value never gives the empty string, so a truthy
      error code is never confused with a missing one. */
  lemma PyStrOfTruthyNonEmpty(v: Json)
    requires Truthy(v)
    ensures PyStr(v) != ""
  {
    match v
    case JInt(i) =>
      if i < 0 { assert |IntToString(i)| > 1; } else { assert |NatToString(i)| > 0; }
    case _ =>
  }

  /** The error body the server sends. */
  function ErrorBody(code: string, message: string, link: string): Json {
    JObj([("message", JStr(message)), ("code", JStr(code)), ("type", JStr("invalid_request")), ("link", JStr(link))])
  }

  lemma ErrorBodyFields(code: string, message: string, link: string)
    ensures FieldText(ErrorBody(code, message, link), "code") == code
    ensures FieldText(ErrorBody(code, message, link), "message") == message
    ensures FieldText(ErrorBody(code, message, link), "link") == link
  {
    var fields := ErrorBody(code, message, link).fields;
    assert DistinctKeys(fields);
    LookupDistinct(fields, 0);
    LookupDistinct(fields, 1);
    LookupDistinct(fields, 3);
  }

  /** `str()` of an API error built from a well-formed error body. An empty
      field reads as "" through the `or ''` fallback, which is the field
      itself, so the same text results. */
  lemma ApiErrorStr(errorText: string, status: int, code: string, message: string, link: string)
    ensures Str(ApiErrorFrom(errorText, Response(status, JsonText(ErrorBody(code, message, link)))))
        == "MeiliSearchApiError." + code + (" Error message: " + message + ".") + (" Error documentation: " + link)
  {
    ErrorBodyFields(code, message, link);
    var e := ApiErrorFrom(errorText, Response(status, JsonText(ErrorBody(code, message, link))));
    assert e == MeiliSearchApiError(status, code, " Error message: " + message + ".", " Error documentation: " + link);
  }
}

=== FILE: http_requests.dfy ===
/** The request wrapper every resource call goes through: how the body is
    attached (not at all, as raw content, or as JSON), and how the transport's
    outcome is turned into a response or one of the client's errors. */
module HttpRequests {
  import opened Wrappers
  import opened JsonValues
  import opened Wire
  import opened Errors

  const JsonContentType := "application/json"

  /** The default content type of the private send routine, misspelt in the
      source. The verb wrappers that take a content type default to the
      correct spelling; `get` and `delete` do not pass one and inherit this. */
  const SendDefaultContentType := "applicaiton/json"

  datatype Verb = GET | POST | PUT | PATCH | DELETE

  /** How the body leaves the client: no body at all, raw content with the
      caller's content type, or JSON. */
  datatype SentBody =
    | NoBody
    | RawContent(content: Json)
    | JsonPayload(payload: Json)

  datatype Request = Request(verb: Verb, path: string, body: SentBody, headers: seq<(string, string)>)

  /** What a request carries to the server (`None` when it carries nothing). */
  function SentPayload(r: Request): Json {
    match r.body
    case NoBody => JNull
    case RawContent(c) => c
    case JsonPayload(p) => p
  }

  /** The body dispatch of the send routine. A falsy body (`None`, `[]`,
      `{}`, `""`) sends no body; otherwise the body goes out unchanged, as
      JSON exactly when the content type is "application/json" and as raw
      content under any other content type, with that content type as the
      request's header. */
  function BuildRequest(verb: Verb, path: string, body: Json, contentType: string): (r: Request)
    ensures r.verb == verb && r.path == path
    ensures r.body.NoBody? <==> !Truthy(body)
    ensures r.body.JsonPayload? <==> Truthy(body) && contentType == JsonContentType
    ensures r.body.RawContent? <==> Truthy(body) && contentType != JsonContentType
    ensures Truthy(body) ==> SentPayload(r) == body && r.headers == [("Content-Type", contentType)]
    ensures !Truthy(body) ==> SentPayload(r) == JNull && r.headers == []
  {
    if !Truthy(body) then Request(verb, path, NoBody, [])
    else if contentType != JsonContentType then Request(verb, path, RawContent(body), [("Content-Type", contentType)])
    else Request(verb, path, JsonPayload(body), [("Content-Type", contentType)])
  }

  /** `HttpRequests.get`: never carries a body. */
  function GetRequest(path: string): (r: Request)
    ensures r.verb == GET && r.path == path && r.body.NoBody?
  {
    BuildRequest(GET, path, JNull, SendDefaultContentType)
  }

  function PostRequest(path: string, body: Json, contentType: string): Request {
    BuildRequest(POST, path, body, contentType)
  }

  function PutRequest(path: string, body: Json, contentType: string): Request {
    BuildRequest(PUT, path, body, contentType)
  }

  function PatchRequest(path: string, body: Json, contentType: string): Request {
    BuildRequest(PATCH, path, body, contentType)
  }

  /** The exception raised when `content=` reaches a transport verb that has
      no such parameter. */
  const DeleteContentError := Builtin(TypeError, "delete() got an unexpected keyword argument 'content'")

  /** `HttpRequests.delete`. It passes no content type, so a truthy body
      takes the raw-content branch of the send routine, and the transport's
      `delete` accepts no `content=`: the call raises `TypeError` (which the
      routine does not catch) before anything is sent. A falsy body sends a
      plain DELETE. */
  function Delete(path: string, body: Json): (r: Result<Request, Error>)
    ensures r.Success? <==> !Truthy(body)
    ensures r.Success? ==> r.value.verb == DELETE && r.value.path == path && r.value.body.NoBody?
    ensures r.Failure? ==> r.error == DeleteContentError
  {
    var req := BuildRequest(DELETE, path, body, SendDefaultContentType);
    if req.body.RawContent? then Failure(DeleteContentError) else Success(req)
  }

  /** A DELETE without a body, as every caller sends it. */
  function DeleteRequest(path: string): (r: Request)
    ensures r.verb == DELETE && r.path == path && r.body.NoBody? && r.headers == []
    ensures Delete(path, JNull) == Success(r)
  {
    BuildRequest(DELETE, path, JNull, SendDefaultContentType)
  }

  /** Because of the misspelt default, no DELETE body ever takes the JSON
      branch: a truthy one is routed to raw content, which is what makes the
      call raise. */
  lemma DeleteNeverSendsJson(path: string, body: Json)
    ensures !BuildRequest(DELETE, path, body, SendDefaultContentType).body.JsonPayload?
    ensures Truthy(body) <==> Delete(path, body).Failure?
  {
  }

  /** With their default content type, POST, PUT and PATCH send every truthy
      body as JSON. */
  lemma WritesWithDefaultSendJson(verb: Verb, path: string, body: Json)
    requires verb in {POST, PUT, PATCH}
    requires Truthy(body)
    ensures BuildRequest(verb, path, body, JsonContentType).body == JsonPayload(body)
  {
  }

  /** The transport exceptions the wrapper reports as communication errors. */
  predicate IsConnectionFault(f: Fault) {
    f.ConnectError? || f.ConnectTimeout? || f.RemoteProtocolError?
  }

  /** The `try`/`except` of the send routine. A response that passes the
      status check is returned unchanged. Connection failures become
      communication errors (their clause comes before the `HTTPError` one),
      a status-check failure becomes an API error carrying the response,
      another `HTTPError` raised before any response exists becomes the
      generic error, and anything else escapes untouched. */
  function Send(ex: Exchange): (r: Result<Response, Error>)
    ensures r.Success? <==> ex.Responded? && !IsErrorStatus(ex.response.status)
    ensures r.Success? ==> r.value == ex.response
    ensures ex.Failed? && IsConnectionFault(ex.fault) ==>
      r == Failure(MeiliSearchCommunicationError(ex.fault.text))
    ensures ex.Failed? && ex.fault.OtherHttpError? ==> r == Failure(MeiliSearchError(ex.fault.text))
    ensures ex.Failed? && ex.fault.NotHttpError? ==> r == Failure(TransportError(ex.fault))
    ensures r.Failure? && r.error.MeiliSearchApiError? <==>
      ex.Responded? && IsErrorStatus(ex.response.status) && ReadableErrorBody(ex.response)
    ensures r.Failure? && r.error.MeiliSearchApiError? ==> r.error.statusCode == ex.response.status
  {
    match ex
    case Failed(f) =>
      if IsConnectionFault(f) then Failure(MeiliSearchCommunicationError(f.text))
      else if f.OtherHttpError? then Failure(MeiliSearchError(f.text))
      else Failure(TransportError(f))
    case Responded(resp, statusText) =>
      if IsErrorStatus(resp.status) then Failure(ApiErrorFrom(statusText, resp))
      else Success(resp)
  }

  /** `response.json()`: an empty or undecodable body raises. */
  function JsonOf(resp: Response): (r: Result<Json, Error>)
    ensures r.Success? <==> resp.content.JsonText?
    ensures r.Success? ==> r.value == resp.content.value
  {
    match resp.content
    case JsonText(v) => Success(v)
    case _ => Failure(Builtin(JsonDecodeError, "Expecting value"))
  }

  /** `d[key]`: a missing key raises `KeyError`, a non-dict `TypeError`. */
  function Subscript(j: Json, key: string): (r: Result<Json, Error>)
    ensures r.Success? <==> Get(j, key).Some?
    ensures r.Success? ==> Get(j, key) == Some(r.value)
  {
    if !j.JObj? then Failure(Builtin(TypeError, "object is not subscriptable"))
    else match Lookup(j.fields, key)
      case None => Failure(Builtin(KeyError, key))
      case Some(v) => Success(v)
  }

  /** The requests an operation sent, in order, and what it returned or
      raised. */
  datatype Trace<T> = Trace(sent: seq<Request>, result: Result<T, Error>)
}

=== FILE: indexes.dfy ===
/** The `Index` resource: its routes, the requests each operation sends, and
    how the server's replies become results. Every reply is an input value
    (`Exchange`); an operation returns the requests it sent, in order, with
    what it returned or raised. Waiting for a task is an oracle from a task
    uid to its final status. Query strings are built by an opaque encoder
    standing for `urlencode`. */
module Indexes {
  import opened Wrappers
  import opened Strings
  import opened JsonValues
  import opened Wire
  import opened Errors
  import opened HttpRequests
  import opened Batching
  import opened Timestamps
  import opened Settings

  /** A handle on an index. `uid` and `primaryKey` hold whatever value they
      were given (Python does not check their type); the two timestamps have
      been through the timestamp conversion. */
  datatype Index = Index(uid: Json, primaryKey: Json, createdAt: Option<DateTime>, updatedAt: Option<DateTime>)

  /** `urlencode`: a list of name/value pairs to a query string. */
  type Encoder = seq<(string, string)> -> string

  /** `wait_for_task`: the final status of the task with the given uid, or
      the error raised while waiting. */
  type TaskWaiter = Json -> Result<string, Error>

  // ---------------------------------------------------------------------
  // Routes.

  const IndexesRoute := "indexes"
  const BaseUrl := "indexes/"

  function UidUrl(uid: Json): string {
    BaseUrl + PyStr(uid)
  }

  function DocumentsUrl(uid: Json): string {
    UidUrl(uid) + "/documents"
  }

  function StatsUrl(uid: Json): string {
    UidUrl(uid) + "/stats"
  }

  function SettingsUrl(uid: Json): string {
    UidUrl(uid) + "/settings"
  }

  /** The routes of an index all sit under `indexes/<uid>/`, and each of them
      determines the uid it was built from. */
  lemma RoutesOfIndex(a: Json, b: Json)
    ensures StartsWith(DocumentsUrl(a), BaseUrl + PyStr(a) + "/")
    ensures StartsWith(StatsUrl(a), BaseUrl + PyStr(a) + "/")
    ensures StartsWith(SettingsUrl(a), BaseUrl + PyStr(a) + "/")
    ensures DocumentsUrl(a) == DocumentsUrl(b) ==> PyStr(a) == PyStr(b)
    ensures StatsUrl(a) == StatsUrl(b) ==> PyStr(a) == PyStr(b)
    ensures SettingsUrl(a) == SettingsUrl(b) ==> PyStr(a) == PyStr(b)
    ensures DocumentsUrl(a) != StatsUrl(b) && DocumentsUrl(a) != SettingsUrl(b) && StatsUrl(a) != SettingsUrl(b)
  {
    RouteUnder(PyStr(a), "/documents");
    RouteUnder(PyStr(a), "/stats");
    RouteUnder(PyStr(a), "/settings");
    RouteDeterminesUid(PyStr(a), PyStr(b), "/documents");
    RouteDeterminesUid(PyStr(a), PyStr(b), "/stats");
    RouteDeterminesUid(PyStr(a), PyStr(b), "/settings");
    RoutesDiffer(PyStr(a), PyStr(b));
  }

  lemma RouteUnder(uid: string, tail: string)
    requires |tail| > 0 && tail[0] == '/'
    ensures StartsWith(BaseUrl + uid + tail, BaseUrl + uid + "/")
  {
    var url := BaseUrl + uid + tail;
    assert url[..|BaseUrl + uid + "/"|] == BaseUrl + uid + "/";
  }

  lemma RouteDeterminesUid(a: string, b: string, tail: string)
    ensures BaseUrl + a + tail == BaseUrl + b + tail ==> a == b
  {
    var x, y := BaseUrl + a + tail, BaseUrl + b + tail;
    if x == y {
      assert a == x[|BaseUrl|..|x| - |tail|];
      assert b == y[|BaseUrl|..|y| - |tail|];
    }
  }

  lemma RoutesDiffer(a: string, b: string)
    ensures BaseUrl + a + "/documents" != BaseUrl + b + "/stats"
    ensures BaseUrl + a + "/documents" != BaseUrl + b + "/settings"
    ensures BaseUrl + a + "/stats" != BaseUrl + b + "/settings"
  {
    var d, st, se, st2 := BaseUrl + a + "/documents", BaseUrl + b + "/stats", BaseUrl + b + "/settings", BaseUrl + a + "/stats";
    assert d[|d| - 3] == 'n' && st[|st| - 3] == 'a';
    assert d[|d| - 2] == 't' && se[|se| - 2] == 'g';
    assert st2[|st2| - 3] == 'a' && se[|se| - 3] == 'n';
  }

  /** The settings sub-resources, each reached at
      `indexes/<uid>/settings/<slug>`. */
  datatype SettingsResource =
    | RankingRules
    | DistinctAttribute
    | SearchableAttributes
    | DisplayedAttributes
    | StopWords
    | Synonyms
    | FilterableAttributes
    | SortableAttributes
    | TypoToleranceSetting

  function Slug(r: SettingsResource): string {
    match r
    case RankingRules => "ranking-rules"
    case DistinctAttribute => "distinct-attribute"
    case SearchableAttributes => "searchable-attributes"
    case DisplayedAttributes => "displayed-attributes"
    case StopWords => "stop-words"
    case Synonyms => "synonyms"
    case FilterableAttributes => "filterable-attributes"
    case SortableAttributes => "sortable-attributes"
    case TypoToleranceSetting => "typo-tolerance"
  }

  /** The sub-resource a slug names, if any. */
  function ResourceOfSlug(slug: string): (r: Option<SettingsResource>)
    ensures r.Some? ==> Slug(r.value) == slug
  {
    if slug == "ranking-rules" then Some(RankingRules)
    else if slug == "distinct-attribute" then Some(DistinctAttribute)
    else if slug == "searchable-attributes" then Some(SearchableAttributes)
    else if slug == "displayed-attributes" then Some(DisplayedAttributes)
    else if slug == "stop-words" then Some(StopWords)
    else if slug == "synonyms" then Some(Synonyms)
    else if slug == "filterable-attributes" then Some(FilterableAttributes)
    else if slug == "sortable-attributes" then Some(SortableAttributes)
    else if slug == "typo-tolerance" then Some(TypoToleranceSetting)
    else None
  }

  function ResourceUrl(uid: Json, r: SettingsResource): string {
    SettingsUrl(uid) + "/" + Slug(r)
  }

  /** Reading, updating and resetting a settings resource. */
  datatype SettingsAction = Read | Update(body: Json) | Reset

  /** Every settings resource is read with GET, updated with POST (the
      body as JSON) and reset with DELETE, at its own route. */
  function SettingsRequest(url: string, action: SettingsAction): (r: Request)
    ensures r.path == url
    ensures r.verb == (match action case Read => GET case Update(_) => POST case Reset => DELETE)
    ensures action.Update? && Truthy(action.body) ==> r.body == JsonPayload(action.body)
    ensures !action.Update? || !Truthy(action.body) ==> r.body.NoBody?
  {
    match action
    case Read => GetRequest(url)
    case Update(body) => PostRequest(url, body, JsonContentType)
    case Reset => DeleteRequest(url)
  }

  /** The route of a settings request names the index and the resource, and
      the resource can be read back from it. */
  lemma SettingsRoute(uid: Json, r: SettingsResource, action: SettingsAction)
    ensures var path := SettingsRequest(ResourceUrl(uid, r), action).path;
      && StartsWith(path, SettingsUrl(uid) + "/")
      && ResourceOfSlug(path[|SettingsUrl(uid) + "/"|..]) == Some(r)
  {
    var prefix := SettingsUrl(uid) + "/";
    assert ResourceUrl(uid, r) == prefix + Slug(r);
    ConcatSlices(prefix, Slug(r));
    SlugRoundTrip(r);
  }

  /** Each resource is named by its own slug. */
  lemma SlugRoundTrip(r: SettingsResource)
    ensures ResourceOfSlug(Slug(r)) == Some(r)
  {
    match r
    case RankingRules =>
    case DistinctAttribute =>
    case SearchableAttributes =>
    case DisplayedAttributes =>
    case StopWords =>
    case Synonyms =>
    case FilterableAttributes =>
    case SortableAttributes =>
    case TypoToleranceSetting =>
  }

  lemma ConcatSlices(a: string, b: string)
    ensures (a + b)[..|a|] == a && (a + b)[|a|..] == b
  {
  }

  // ---------------------------------------------------------------------
  // Replies.

  /** `response.json()` of a reply that passed the status check. */
  function ReadBody(ex: Exchange): (r: Result<Json, Error>)
    ensures r.Success? <==> Send(ex).Success? && JsonOf(Send(ex).value).Success?
    ensures r.Success? ==> r.value == Send(ex).value.content.value
    ensures Send(ex).Failure? ==> r == Failure(Send(ex).error)
  {
    var resp :- Send(ex);
    JsonOf(resp)
  }

  /** `Model(**response.json())` for the task records the server answers
      writes with (their fields are not modelled): the body must be an
      object. */
  function TaskOf(ex: Exchange): (r: Result<Json, Error>)
    ensures r.Success? <==> ReadBody(ex).Success? && ReadBody(ex).value.JObj?
    ensures r.Success? ==> r.value == ReadBody(ex).value
    ensures ReadBody(ex).Failure? ==> r == Failure(ReadBody(ex).error)
  {
    var body :- ReadBody(ex);
    if body.JObj? then Success(body) else Failure(Builtin(TypeError, "argument after ** must be a mapping"))
  }

  /** `None`, `""`, `[]`, `{}` become `None`; anything else is kept. */
  function EmptyAsNone(body: Json): (r: Json)
    ensures Truthy(body) ==> r == body
    ensures !Truthy(body) ==> r == JNull
    ensures !Truthy(r)  <==> !Truthy(body)
  {
    if Truthy(body) then body else JNull
  }

  /** `Index._iso_to_date_time` of a value read from a reply: falsy values
      give `None`, strings are parsed, and any other value makes the parse
      raise `TypeError`. */
  function DateOf(j: Json): (r: Result<Option<DateTime>, Error>)
    ensures !Truthy(j) ==> r == Success(None)
    ensures j.JStr? ==> r == IsoToDateTime(Text(j.s))
    ensures Truthy(j) && !j.JStr? ==> r.Failure? && r.error == Builtin(TypeError, "strptime() argument 1 must be str")
  {
    if !Truthy(j) then Success(None)
    else if j.JStr? then IsoToDateTime(Text(j.s))
    else Failure(Builtin(TypeError, "strptime() argument 1 must be str"))
  }

  /** The `Index` built from an index record: the four fields are read in
      order, then the two timestamps are converted. */
  function IndexFromJson(d: Json): (r: Result<Index, Error>)
    ensures r.Success? ==>
      && Get(d, "uid") == Some(r.value.uid)
      && Get(d, "primaryKey") == Some(r.value.primaryKey)
      && Get(d, "createdAt").Some? && DateOf(Get(d, "createdAt").value) == Success(r.value.createdAt)
      && Get(d, "updatedAt").Some? && DateOf(Get(d, "updatedAt").value) == Success(r.value.updatedAt)
    ensures r.Failure? <==>
      || Get(d, "uid").None? || Get(d, "primaryKey").None?
      || Get(d, "createdAt").None? || Get(d, "updatedAt").None?
      || DateOf(Get(d, "createdAt").value).Failure? || DateOf(Get(d, "updatedAt").value).Failure?
  {
    var uid :- Subscript(d, "uid");
    var primaryKey :- Subscript(d, "primaryKey");
    var created :- Subscript(d, "createdAt");
    var updated :- Subscript(d, "updatedAt");
    var createdAt :- DateOf(created);
    var updatedAt :- DateOf(updated);
    Success(Index(uid, primaryKey, createdAt, updatedAt))
  }

  /** Timestamps a handle can hold: none, or a valid date-time. */
  predicate ValidDates(index: Index) {
    && (index.createdAt.Some? ==> Valid(index.createdAt.value))
    && (index.updatedAt.Some? ==> Valid(index.updatedAt.value))
  }

  /** A timestamp as the server writes it: ISO text ending in "Z", or
      `null` when there is none. */
  function DateJson(d: Option<DateTime>): Json
    requires d.Some? ==> Valid(d.value)
  {
    match d
    case None => JNull
    case Some(dt) => JStr(IsoFormat(dt))
  }

  /** The index record the server answers with for a handle. */
  function IndexRecord(index: Index): Json
    requires ValidDates(index)
  {
    JObj([
      ("uid", index.uid),
      ("primaryKey", index.primaryKey),
      ("createdAt", DateJson(index.createdAt)),
      ("updatedAt", DateJson(index.updatedAt))
    ])
  }

  /** A timestamp the server writes reads back as itself, and the
      conversion as written reads it the same way. */
  lemma DateOfRoundTrip(d: Option<DateTime>)
    requires d.Some? ==> Valid(d.value)
    ensures DateOf(DateJson(d)) == Success(d)
    ensures DateJson(d).JStr? ==> IsoToDateTimeAsWritten(Text(DateJson(d).s)) == Success(d)
  {
    if d.Some? {
      StrpTimeOfIsoFormat(d.value);
    }
  }

  /** A timestamp string as the server writes it, with a fraction of any
      number of digits and the closing "Z", reads as its first six fraction
      digits, and the conversion as written reads it the same way. */
  lemma DateOfServerText(dt: DateTime, f: string)
    requires Valid(dt) && 1 <= |f| && AllDigits(f)
    ensures
      var s := DatePart(dt) + "." + f + "Z";
      var kept := f[..Min(6, |f|)];
      && FractionValue(kept) <= 999999
      && DateOf(JStr(s)) == Success(Some(dt.(microsecond := FractionValue(kept))))
      && IsoToDateTimeAsWritten(Text(s)) == DateOf(JStr(s))
  {
    AsWrittenAgreesOnServerText(dt, f);
  }

  /** Each field of an index record holds its own value. */
  lemma IndexRecordLookups(index: Index)
    requires ValidDates(index)
    ensures Get(IndexRecord(index), "uid") == Some(index.uid)
    ensures Get(IndexRecord(index), "primaryKey") == Some(index.primaryKey)
    ensures Get(IndexRecord(index), "createdAt") == Some(DateJson(index.createdAt))
    ensures Get(IndexRecord(index), "updatedAt") == Some(DateJson(index.updatedAt))
  {
    var fields := IndexRecord(index).fields;
    assert DistinctKeys(fields);
    LookupDistinct(fields, 0);
    LookupDistinct(fields, 1);
    LookupDistinct(fields, 2);
    LookupDistinct(fields, 3);
  }

  /** Round trip: the handle built from the record of an index is that
      index. */
  lemma IndexRecordRoundTrip(index: Index)
    requires ValidDates(index)
    ensures IndexFromJson(IndexRecord(index)) == Success(index)
  {
    IndexRecordLookups(index);
    DateOfRoundTrip(index.createdAt);
    DateOfRoundTrip(index.updatedAt);
  }

  /** A reply with status 200 carrying `body`. */
  function Ok(body: Json): (ex: Exchange)
    ensures ReadBody(ex) == Success(body)
  {
    Responded(Response(200, JsonText(body)), "OK")
  }

  // ---------------------------------------------------------------------
  // Index lifecycle.

  /** `primary_key` is truthy: given and not empty. */
  predicate HasPrimaryKey(pk: Option<string>) {
    pk.Some? && pk.value != ""
  }

  /** The body `create` posts: the uid always, the primary key only when it
      is truthy. */
  function CreatePayload(uid: string, pk: Option<string>): (r: Json)
    ensures r.JObj? && Truthy(r) && DistinctKeys(r.fields)
    ensures Get(r, "uid") == Some(JStr(uid))
    ensures Get(r, "primaryKey").Some? <==> HasPrimaryKey(pk)
    ensures HasPrimaryKey(pk) ==> Get(r, "primaryKey") == Some(JStr(pk.value))
    ensures forall k :: 0 <= k < |r.fields| ==> r.fields[k].0 in {"uid", "primaryKey"}
  {
    if !HasPrimaryKey(pk) then JObj([("uid", JStr(uid))])
    else
      var fields := [("primaryKey", JStr(pk.value)), ("uid", JStr(uid))];
      LookupDistinct(fields, 0);
      LookupDistinct(fields, 1);
      JObj(fields)
  }

  /** `Index.create`: post the new index, wait for its task, then read the
      index back and build the handle from the record. */
  function Create(uid: string, pk: Option<string>, posted: Exchange, wait: TaskWaiter, fetched: Exchange): (t: Trace<Index>)
    ensures 1 <= |t.sent| <= 2
    ensures t.sent[0] == PostRequest(IndexesRoute, CreatePayload(uid, pk), JsonContentType)
    ensures t.sent[0].body == JsonPayload(CreatePayload(uid, pk))
    ensures |t.sent| == 2 ==> t.sent[1] == GetRequest(IndexesRoute + "/" + uid)
    ensures |t.sent| == 2 <==>
      ReadBody(posted).Success? && Get(ReadBody(posted).value, "uid").Some?
      && wait(Get(ReadBody(posted).value, "uid").value).Success?
    ensures |t.sent| == 2 ==> t.result == (var body :- ReadBody(fetched); IndexFromJson(body))
    ensures Send(posted).Failure? ==> t == Trace(t.sent[..1], Failure(Send(posted).error))
  {
    var post := PostRequest(IndexesRoute, CreatePayload(uid, pk), JsonContentType);
    var waited :=
      var body :- ReadBody(posted);
      var taskUid :- Subscript(body, "uid");
      wait(taskUid);
    if waited.Failure? then Trace([post], Failure(waited.error))
    else
      var result :=
        var body :- ReadBody(fetched);
        IndexFromJson(body);
      Trace([post, GetRequest(IndexesRoute + "/" + uid)], result)
  }

  /** `Index.fetch_info`: read the index record and refresh the primary key
      and timestamps; the uid is kept. */
  function FetchInfo(index: Index, ex: Exchange): (t: Trace<Index>)
    ensures t.sent == [GetRequest(UidUrl(index.uid))]
    ensures t.result.Success? ==>
      && ReadBody(ex).Success?
      && t.result.value.uid == index.uid
      && Get(ReadBody(ex).value, "primaryKey") == Some(t.result.value.primaryKey)
      && Get(ReadBody(ex).value, "createdAt").Some?
      && DateOf(Get(ReadBody(ex).value, "createdAt").value) == Success(t.result.value.createdAt)
      && Get(ReadBody(ex).value, "updatedAt").Some?
      && DateOf(Get(ReadBody(ex).value, "updatedAt").value) == Success(t.result.value.updatedAt)
    ensures ReadBody(ex).Failure? ==> t.result == Failure(ReadBody(ex).error)
  {
    var result :=
      var d :- ReadBody(ex);
      var primaryKey :- Subscript(d, "primaryKey");
      var created :- Subscript(d, "createdAt");
      var createdAt :- DateOf(created);
      var updated :- Subscript(d, "updatedAt");
      var updatedAt :- DateOf(updated);
      Success(index.(primaryKey := primaryKey, createdAt := createdAt, updatedAt := updatedAt));
    Trace([GetRequest(UidUrl(index.uid))], result)
  }

  /** Given the stored record of an index, `fetch_info` refreshes the
      handle to that index's primary key and timestamps, keeping its uid. */
  lemma FetchInfoRoundTrip(index: Index, stored: Index)
    requires ValidDates(stored)
    ensures FetchInfo(index, Ok(IndexRecord(stored))).result == Success(stored.(uid := index.uid))
  {
    IndexRecordLookups(stored);
    DateOfRoundTrip(stored.createdAt);
    DateOfRoundTrip(stored.updatedAt);
  }

  /** Once the creation task has finished, a server answering the read with
      the stored record makes `create` return exactly that index. */
  lemma CreateRoundTrip(uid: string, pk: Option<string>, posted: Exchange, wait: TaskWaiter, stored: Index)
    requires ValidDates(stored)
    requires ReadBody(posted).Success? && Get(ReadBody(posted).value, "uid").Some?
    requires wait(Get(ReadBody(posted).value, "uid").value).Success?
    ensures var t := Create(uid, pk, posted, wait, Ok(IndexRecord(stored)));
      |t.sent| == 2 && t.result == Success(stored)
  {
    IndexRecordRoundTrip(stored);
  }

  /** `Index.delete_if_exists`: delete the index, wait for the task, and
      report whether it succeeded. */
  function DeleteIfExists(index: Index, ex: Exchange, wait: TaskWaiter): (t: Trace<bool>)
    ensures t.sent == [DeleteRequest(UidUrl(index.uid))]
    ensures t.sent[0].body.NoBody?
    ensures t.result == Success(true) <==>
      TaskOf(ex).Success? && Get(TaskOf(ex).value, "uid").Some?
      && wait(Get(TaskOf(ex).value, "uid").value) == Success("succeeded")
    ensures t.result == Success(false) <==>
      TaskOf(ex).Success? && Get(TaskOf(ex).value, "uid").Some?
      && wait(Get(TaskOf(ex).value, "uid").value).Success?
      && wait(Get(TaskOf(ex).value, "uid").value).value != "succeeded"
    ensures TaskOf(ex).Failure? ==> t.result == Failure(TaskOf(ex).error)
  {
    var result :=
      var task :- TaskOf(ex);
      var taskUid :- match Get(task, "uid")
        case None => Failure(Builtin(ValidationError, "uid: field required"))
        case Some(v) => Success(v);
      var status :- wait(taskUid);
      Success(status == "succeeded");
    Trace([DeleteRequest(UidUrl(index.uid))], result)
  }

  // ---------------------------------------------------------------------
  // Documents.

  /** The documents route of a write: `?` and the encoded primary key are
      appended only when the primary key is truthy. */
  function DocumentsWriteUrl(uid: Json, pk: Option<string>, encode: Encoder): (url: string)
    ensures StartsWith(url, DocumentsUrl(uid))
    ensures url == DocumentsUrl(uid) <==> !HasPrimaryKey(pk)
    ensures HasPrimaryKey(pk) ==> url == DocumentsUrl(uid) + "?" + encode([("primaryKey", pk.value)])
  {
    if HasPrimaryKey(pk) then
      var url := DocumentsUrl(uid) + "?" + encode([("primaryKey", pk.value)]);
      assert url[..|DocumentsUrl(uid)|] == DocumentsUrl(uid);
      url
    else DocumentsUrl(uid)
  }

  /** The request `add_documents` (POST) or `update_documents` (PUT) sends. */
  function DocumentsRequest(verb: Verb, uid: Json, docs: seq<Json>, pk: Option<string>, encode: Encoder): Request {
    BuildRequest(verb, DocumentsWriteUrl(uid, pk, encode), JArr(docs), JsonContentType)
  }

  /** The documents a request carries. */
  function DocsOf(r: Request): seq<Json> {
    match SentPayload(r)
    case JArr(items) => items
    case _ => []
  }

  function SentDocs(sent: seq<Request>): (r: seq<seq<Json>>)
    ensures |r| == |sent| && forall i :: 0 <= i < |sent| ==> r[i] == DocsOf(sent[i])
  {
    seq(|sent|, i requires 0 <= i < |sent| => DocsOf(sent[i]))
  }

  /** A documents write carries exactly the documents it was given: as JSON
      when there are some, and with no body at all when the list is empty. */
  lemma DocumentsRequestCarries(verb: Verb, uid: Json, docs: seq<Json>, pk: Option<string>, encode: Encoder)
    requires verb in {POST, PUT}
    ensures DocsOf(DocumentsRequest(verb, uid, docs, pk, encode)) == docs
    ensures |docs| > 0 ==> DocumentsRequest(verb, uid, docs, pk, encode).body == JsonPayload(JArr(docs))
    ensures |docs| == 0 ==> DocumentsRequest(verb, uid, docs, pk, encode).body == NoBody
  {
  }

  /** `add_documents` (verb POST) and `update_documents` (verb PUT). */
  function WriteDocuments(verb: Verb, uid: Json, docs: seq<Json>, pk: Option<string>, encode: Encoder, ex: Exchange): (t: Trace<Json>)
    requires verb in {POST, PUT}
    ensures t.sent == [DocumentsRequest(verb, uid, docs, pk, encode)]
    ensures t.sent[0].verb == verb && DocsOf(t.sent[0]) == docs
    ensures t.result == TaskOf(ex)
  {
    DocumentsRequestCarries(verb, uid, docs, pk, encode);
    Trace([DocumentsRequest(verb, uid, docs, pk, encode)], TaskOf(ex))
  }

  /** The task record each reply of a stream carries, or its error. */
  function Replies(server: nat -> Exchange): nat -> Result<Json, Error> {
    (j: nat) => TaskOf(server(j))
  }

  /** Sends `reqs[k..]` in order, the reply to the `j`-th request being
      `replies(j)`, and stops at the first reply that fails. */
  function SendEach(reqs: seq<Request>, replies: nat -> Result<Json, Error>, k: nat): (t: Trace<seq<Json>>)
    requires k <= |reqs|
    ensures |t.sent| <= |reqs| - k && t.sent == reqs[k..k + |t.sent|]
    ensures k < |reqs| ==> |t.sent| >= 1
    ensures t.result.Success? ==> |t.sent| == |reqs| - k
    decreases |reqs| - k
  {
    if k == |reqs| then Trace([], Success([]))
    else match replies(k)
      case Failure(e) => Trace([reqs[k]], Failure(e))
      case Success(task) =>
        var rest := SendEach(reqs, replies, k + 1);
        var result := match rest.result
          case Success(tasks) => Success([task] + tasks)
          case Failure(e) => Failure(e);
        var sent := [reqs[k]] + rest.sent;
        assert sent == reqs[k..k + |sent|];
        Trace(sent, result)
  }

  /** Sending stops exactly at the first failed reply, whose error it
      raises; when every reply succeeds, the results are the replies' task
      records in order. */
  lemma SendEachOutcome(reqs: seq<Request>, replies: nat -> Result<Json, Error>, k: nat)
    requires k <= |reqs|
    ensures var t := SendEach(reqs, replies, k);
      && (t.result.Success? <==> forall j :: k <= j < |reqs| ==> replies(j).Success?)
      && (t.result.Success? ==>
            && |t.result.value| == |reqs| - k
            && forall j :: 0 <= j < |reqs| - k ==> Success(t.result.value[j]) == replies(k + j))
      && (t.result.Failure? ==>
            && |t.sent| > 0
            && replies(k + |t.sent| - 1) == Failure(t.result.error)
            && forall j :: k <= j < k + |t.sent| - 1 ==> replies(j).Success?)
  {
    SendEachSucceeds(reqs, replies, k);
    SendEachValues(reqs, replies, k);
    SendEachFailure(reqs, replies, k);
  }

  lemma {:induction false} SendEachSucceeds(reqs: seq<Request>, replies: nat -> Result<Json, Error>, k: nat)
    requires k <= |reqs|
    ensures SendEach(reqs, replies, k).result.Success? <==> forall j :: k <= j < |reqs| ==> replies(j).Success?
    decreases |reqs| - k
  {
    if k == |reqs| {
    } else if replies(k).Failure? {
      SendEachStop(reqs, replies, k);
    } else {
      SendEachSucceeds(reqs, replies, k + 1);
      SendEachStep(reqs, replies, k);
    }
  }

  lemma {:induction false} SendEachValues(reqs: seq<Request>, replies: nat -> Result<Json, Error>, k: nat)
    requires k <= |reqs|
    ensures var t := SendEach(reqs, replies, k);
      t.result.Success? ==>
        && |t.result.value| == |reqs| - k
        && forall j :: 0 <= j < |reqs| - k ==> Success(t.result.value[j]) == replies(k + j)
    decreases |reqs| - k
  {
    if k == |reqs| {
    } else if replies(k).Failure? {
      SendEachStop(reqs, replies, k);
    } else {
      SendEachValues(reqs, replies, k + 1);
      SendEachStep(reqs, replies, k);
      var t := SendEach(reqs, replies, k);
      var rest := SendEach(reqs, replies, k + 1);
      if rest.result.Success? {
        forall j | 0 <= j < |reqs| - k ensures Success(t.result.value[j]) == replies(k + j) {
          if j > 0 {
            assert t.result.value[j] == rest.result.value[j - 1];
          }
        }
      }
    }
  }

  lemma {:induction false} SendEachFailure(reqs: seq<Request>, replies: nat -> Result<Json, Error>, k: nat)
    requires k <= |reqs|
    ensures var t := SendEach(reqs, replies, k);
      t.result.Failure? ==>
        && |t.sent| > 0
        && replies(k + |t.sent| - 1) == Failure(t.result.error)
        && forall j :: k <= j < k + |t.sent| - 1 ==> replies(j).Success?
    decreases |reqs| - k
  {
    if k == |reqs| {
    } else if replies(k).Failure? {
      SendEachStop(reqs, replies, k);
    } else {
      SendEachFailure(reqs, replies, k + 1);
      SendEachStep(reqs, replies, k);
      var t := SendEach(reqs, replies, k);
      var rest := SendEach(reqs, replies, k + 1);
      if rest.result.Failure? {
        assert |t.sent| == |rest.sent| + 1;
        assert k + |t.sent| - 1 == (k + 1) + |rest.sent| - 1;
      }
    }
  }

  /** A successful first reply: the rest is sent after it. */
  lemma SendEachStep(reqs: seq<Request>, replies: nat -> Result<Json, Error>, k: nat)
    requires k < |reqs| && replies(k).Success?
    ensures var t := SendEach(reqs, replies, k);
      var rest := SendEach(reqs, replies, k + 1);
      && t.sent == [reqs[k]] + rest.sent
      && t.result.Success? == rest.result.Success?
      && (rest.result.Success? ==> t.result.value == [replies(k).value] + rest.result.value)
      && (rest.result.Failure? ==> t.result.error == rest.result.error)
  {
  }

  /** A failed first reply: nothing more is sent. */
  lemma SendEachStop(reqs: seq<Request>, replies: nat -> Result<Json, Error>, k: nat)
    requires k < |reqs| && replies(k).Failure?
    ensures SendEach(reqs, replies, k) == Trace([reqs[k]], Failure(replies(k).error))
  {
  }

  /** One documents write per batch, in order. */
  function BatchRequests(verb: Verb, uid: Json, batches: seq<seq<Json>>, pk: Option<string>, encode: Encoder): (r: seq<Request>)
    requires verb in {POST, PUT}
    ensures |r| == |batches|
    ensures forall i :: 0 <= i < |r| ==> r[i] == DocumentsRequest(verb, uid, batches[i], pk, encode)
    ensures SentDocs(r) == batches
  {
    var r := seq(|batches|, i requires 0 <= i < |batches| => DocumentsRequest(verb, uid, batches[i], pk, encode));
    forall i | 0 <= i < |batches| ensures DocsOf(r[i]) == batches[i] {
      DocumentsRequestCarries(verb, uid, batches[i], pk, encode);
    }
    r
  }

  /** `add_documents_in_batches` / `update_documents_in_batches`: one write
      per chunk of `batchSize` documents, stopping at the first failure. A
      zero batch size raises before anything is sent. */
  function WriteDocumentsInBatches(
    verb: Verb, uid: Json, docs: seq<Json>, batchSize: int, pk: Option<string>, encode: Encoder,
    server: nat -> Exchange): (t: Trace<seq<Json>>)
    requires verb in {POST, PUT}
    ensures batchSize == 0 ==> t == Trace([], Failure(Builtin(ValueError, "range() arg 3 must not be zero")))
    ensures batchSize < 0 ==> t == Trace([], Success([]))
    ensures batchSize > 0 ==> t == SendEach(BatchRequests(verb, uid, Chunks(docs, batchSize), pk, encode), Replies(server), 0)
  {
    match Batch(docs, batchSize)
    case Failure(e) => Trace([], Failure(e))
    case Success(batches) => SendEach(BatchRequests(verb, uid, batches, pk, encode), Replies(server), 0)
  }

  /** The batched writes go out in order, one per chunk, each carrying
      between one and `batchSize` documents; when they all succeed the
      documents sent are exactly the input, in order, and there is one task
      per write. */
  lemma InBatchesSendsAll(
    verb: Verb, uid: Json, docs: seq<Json>, batchSize: int, pk: Option<string>, encode: Encoder,
    server: nat -> Exchange)
    requires verb in {POST, PUT}
    requires batchSize > 0
    ensures var t := WriteDocumentsInBatches(verb, uid, docs, batchSize, pk, encode, server);
      && (forall i :: 0 <= i < |t.sent| ==> 1 <= |DocsOf(t.sent[i])| <= batchSize)
      && (t.result.Success? ==> Flatten(SentDocs(t.sent)) == docs && |t.result.value| == |t.sent|)
  {
    var batches := Chunks(docs, batchSize);
    ChunkSizes(docs, batchSize);
    var reqs := BatchRequests(verb, uid, batches, pk, encode);
    SentPrefixDocs(reqs, batches, Replies(server));
    var t := SendEach(reqs, Replies(server), 0);
    assert WriteDocumentsInBatches(verb, uid, docs, batchSize, pk, encode, server) == t;
    forall i | 0 <= i < |t.sent| ensures 1 <= |DocsOf(t.sent[i])| <= batchSize {
      assert DocsOf(t.sent[i]) == batches[i];
    }
    if t.result.Success? {
      SendEachOutcome(reqs, Replies(server), 0);
      ChunksFlatten(docs, batchSize);
    }
  }

  /** The requests sent are a prefix of the planned ones, so they carry the
      first batches; all of them when every write succeeds. */
  lemma SentPrefixDocs(reqs: seq<Request>, batches: seq<seq<Json>>, replies: nat -> Result<Json, Error>)
    requires SentDocs(reqs) == batches
    ensures var t := SendEach(reqs, replies, 0);
      && (forall i :: 0 <= i < |t.sent| ==> DocsOf(t.sent[i]) == batches[i])
      && (t.result.Success? ==> SentDocs(t.sent) == batches)
  {
    var t := SendEach(reqs, replies, 0);
    forall i | 0 <= i < |t.sent| ensures DocsOf(t.sent[i]) == batches[i] {
      assert t.sent[i] == reqs[i];
      assert DocsOf(reqs[i]) == SentDocs(reqs)[i];
    }
  }

  /** `add_documents_auto_batch` / `update_documents_auto_batch`: the
      batches are generated lazily, so the batches before an oversized
      document are written before `PayloadTooLarge` is raised. */
  method WriteDocumentsAutoBatch(
    verb: Verb, uid: Json, docs: seq<Json>, maxPayloadSize: int, pk: Option<string>, encode: Encoder,
    size: Json -> nat, listSize: seq<Json> -> nat, server: nat -> Exchange)
    returns (t: Trace<seq<Json>>)
    requires verb in {POST, PUT}
    ensures t.result.Success? ==> Flatten(SentDocs(t.sent)) == docs
    ensures listSize(docs) < maxPayloadSize ==> |t.sent| == 1 && DocsOf(t.sent[0]) == docs
    ensures listSize(docs) >= maxPayloadSize && (exists j :: 0 <= j < |docs| && size(docs[j]) > maxPayloadSize) ==>
      t.result.Failure?
    ensures listSize(docs) >= maxPayloadSize ==>
      forall i :: 0 <= i < |t.sent| ==> SumSizes(DocsOf(t.sent[i]), size) <= maxPayloadSize
    ensures listSize(docs) >= maxPayloadSize && |t.sent| > 0 && |docs| > 0 && size(docs[0]) == maxPayloadSize ==>
      t.sent[0].body.NoBody?
  {
    var batches, failure := PlanAutoBatches(docs, maxPayloadSize, size, listSize);
    var reqs := BatchRequests(verb, uid, batches, pk, encode);
    SentPrefixDocs(reqs, batches, Replies(server));
    t := SendEach(reqs, Replies(server), 0);
    if t.result.Success? && failure.Some? {
      t := Trace(t.sent, Failure(failure.value));
    }
    if listSize(docs) >= maxPayloadSize && |t.sent| > 0 && |docs| > 0 && size(docs[0]) == maxPayloadSize {
      assert t.sent[0] == reqs[0];
      DocumentsRequestCarries(verb, uid, batches[0], pk, encode);
    }
  }

  /** The facts about the planned batches that the writes rely on. */
  method PlanAutoBatches(docs: seq<Json>, maxPayloadSize: int, size: Json -> nat, listSize: seq<Json> -> nat)
    returns (batches: seq<seq<Json>>, failure: Option<Error>)
    ensures listSize(docs) < maxPayloadSize ==> batches == [docs] && failure == None
    ensures failure.None? ==> Flatten(batches) == docs
    ensures failure.None? ==> listSize(docs) < maxPayloadSize || forall j :: 0 <= j < |docs| ==> size(docs[j]) <= maxPayloadSize
    ensures listSize(docs) >= maxPayloadSize ==> WithinBudget(batches, maxPayloadSize, size)
    ensures listSize(docs) >= maxPayloadSize && |docs| > 0 && size(docs[0]) == maxPayloadSize ==>
      |batches| > 0 && batches[0] == []
  {
    batches, failure := GenerateAutoBatches(docs, maxPayloadSize, size, listSize);
  }

  /** The query `get_documents` encodes: offset and limit always, the
      attributes to retrieve joined by commas only when there are some. */
  function DocumentsQuery(offset: int, limit: int, attributes: Option<seq<string>>): (q: seq<(string, string)>)
    ensures |q| >= 2 && q[0] == ("offset", IntToString(offset)) && q[1] == ("limit", IntToString(limit))
    ensures |q| == 3 <==> attributes.Some? && |attributes.value| > 0
    ensures |q| == 3 ==> q[2] == ("attributesToRetrieve", Join(",", attributes.value))
    ensures |q| <= 3
  {
    var q := [("offset", IntToString(offset)), ("limit", IntToString(limit))];
    if attributes.Some? && |attributes.value| > 0 then q + [("attributesToRetrieve", Join(",", attributes.value))]
    else q
  }

  /** The attribute list can be read back from the query, provided no
      attribute name holds a comma. */
  lemma DocumentsQueryAttributes(offset: int, limit: int, attributes: seq<string>)
    requires |attributes| > 0
    requires forall k :: 0 <= k < |attributes| ==> ',' !in attributes[k]
    ensures Split(DocumentsQuery(offset, limit, Some(attributes))[2].1, ',') == attributes
  {
    assert Join(",", attributes) == Join([','], attributes);
    SplitJoin(attributes, ',');
  }

  /** `get_documents`: an empty list comes back as `None`. */
  function GetDocuments(uid: Json, offset: int, limit: int, attributes: Option<seq<string>>, encode: Encoder, ex: Exchange): (t: Trace<Json>)
    ensures t.sent == [GetRequest(DocumentsUrl(uid) + "?" + encode(DocumentsQuery(offset, limit, attributes)))]
    ensures ReadBody(ex).Success? ==> t.result == Success(EmptyAsNone(ReadBody(ex).value))
    ensures ReadBody(ex).Failure? ==> t.result == Failure(ReadBody(ex).error)
  {
    var url := DocumentsUrl(uid) + "?" + encode(DocumentsQuery(offset, limit, attributes));
    Trace([GetRequest(url)], var body :- ReadBody(ex); Success(EmptyAsNone(body)))
  }

  /** `Path.name`: the last component of a path, after its last "/". */
  function FileName(path: string): (r: string)
    ensures '/' !in r && |r| <= |path| && r == path[|path| - |r|..]
  {
    match LastIndexOf(path, '/')
    case None => path
    case Some(i) =>
      var r := path[i + 1..];
      assert forall j :: 0 <= j < |r| ==> r[j] == path[i + 1 + j];
      r
  }

  /** `Path.suffix`: the suffix of the file name. */
  function Suffix(path: string): (r: string)
    ensures var name := FileName(path);
      r == "" || (|r| >= 2 && r[0] == '.' && '.' !in r[1..] && |r| < |name| && r == name[|name| - |r|..])
  {
    NameSuffix(FileName(path))
  }

  /** The suffix of a file name: from its last dot, provided that dot is
      neither the first nor the last character. */
  function NameSuffix(name: string): (r: string)
    ensures r == "" || (|r| >= 2 && r[0] == '.' && '.' !in r[1..] && |r| < |name| && r == name[|name| - |r|..])
  {
    match LastIndexOf(name, '.')
    case None => ""
    case Some(i) =>
      if 0 < i < |name| - 1 then
        var r := name[i..];
        assert forall j :: 0 <= j < |r| - 1 ==> r[1..][j] == name[i + 1 + j];
        r
      else ""
  }

  /** A file name made of a stem and an extension without dots has that
      extension as its suffix; a dot file has none. */
  lemma SuffixOfName(stem: string, ext: string)
    requires stem != "" && ext != "" && '.' !in ext
    requires '/' !in stem && '/' !in ext
    ensures Suffix(stem + "." + ext) == "." + ext
    ensures Suffix("." + ext) == ""
  {
    var name := stem + "." + ext;
    assert '/' !in name by {
      forall j | 0 <= j < |name| ensures name[j] != '/' {
        if j < |stem| { assert name[j] == stem[j]; }
        else if j > |stem| { assert name[j] == ext[j - |stem| - 1]; }
      }
    }
    NoSlashName(name);
    var i := |stem|;
    assert name[i] == '.';
    forall j | i < j < |name| ensures name[j] != '.' {
      assert name[j] == ext[j - i - 1];
    }
    assert LastIndexOf(name, '.') == Some(i) by {
      LastIndexOfLast(name, '.', i);
    }
    assert name[i..] == "." + ext;
    var dotFile := "." + ext;
    assert '/' !in dotFile by {
      forall j | 0 < j < |dotFile| ensures dotFile[j] != '/' {
        assert dotFile[j] == ext[j - 1];
      }
    }
    NoSlashName(dotFile);
    forall j | 0 < j < |dotFile| ensures dotFile[j] != '.' {
      assert dotFile[j] == ext[j - 1];
    }
    LastIndexOfLast(dotFile, '.', 0);
  }

  /** A path without "/" is its own file name. */
  lemma NoSlashName(name: string)
    requires '/' !in name
    ensures FileName(name) == name
  {
    assert forall j :: 0 <= j < |name| ==> name[j] != '/';
  }

  /** Only the last component counts: dots in the directories do not make
      a suffix. */
  lemma SuffixInDirectory(dir: string, name: string)
    requires '/' !in name
    ensures FileName(dir + "/" + name) == name
    ensures Suffix(dir + "/" + name) == Suffix(name)
  {
    var path := dir + "/" + name;
    forall j | |dir| < j < |path| ensures path[j] != '/' {
      assert path[j] == name[j - |dir| - 1];
    }
    LastIndexOfLast(path, '/', |dir|);
    assert path[|dir| + 1..] == name;
    NoSlashName(name);
  }

  lemma {:induction false} LastIndexOfLast(s: string, c: char, k: nat)
    requires k < |s| && s[k] == c
    requires forall j :: k < j < |s| ==> s[j] != c
    ensures LastIndexOf(s, c) == Some(k)
    decreases |s|
  {
    if s[|s| - 1] != c {
      var init := s[..|s| - 1];
      assert init[k] == c;
      LastIndexOfLast(init, c, k);
    }
  }

  const DocumentFileSuffixes := [".json", ".csv", ".ndjson"]

  /** `_validate_file_type`: only json, csv and ndjson files are accepted. */
  function ValidateFileType(name: string): (r: Option<Error>)
    ensures r.None? <==> Suffix(name) in DocumentFileSuffixes
    ensures r.Some? ==> r.value == MeiliSearchError("File must be a json, ndjson, or csv file")
  {
    if Suffix(name) in DocumentFileSuffixes then None
    else Some(MeiliSearchError("File must be a json, ndjson, or csv file"))
  }

  /** The content type a raw upload is sent with. */
  function RawContentType(name: string): (r: Result<string, Error>)
    ensures r.Success? <==> Suffix(name) == ".csv" || Suffix(name) == ".ndjson"
    ensures Suffix(name) == ".csv" ==> r == Success("text/csv")
    ensures Suffix(name) == ".ndjson" ==> r == Success("application/x-ndjson")
    ensures r.Failure? ==> r.error == Builtin(ValueError, "Only csv and ndjson files can be sent as binary files")
  {
    var suffix := Suffix(name);
    if suffix != ".csv" && suffix != ".ndjson" then
      Failure(Builtin(ValueError, "Only csv and ndjson files can be sent as binary files"))
    else if suffix == ".csv" then Success("text/csv")
    else Success("application/x-ndjson")
  }

  /** `add_documents_from_raw_file` (POST) / `update_documents_from_raw_file`
      (PUT): the file text goes out as raw content under its content type.
      Whether the file exists and what it holds are inputs. */
  function RawUpload(
    verb: Verb, uid: Json, name: string, fileExists: bool, text: string, pk: Option<string>,
    encode: Encoder, ex: Exchange): (t: Trace<Json>)
    requires verb in {POST, PUT}
    ensures !fileExists ==> t == Trace([], Failure(MeiliSearchError("No file found at the specified path")))
    ensures fileExists && RawContentType(name).Failure? ==> t == Trace([], Failure(RawContentType(name).error))
    ensures |t.sent| == 1 <==> fileExists && RawContentType(name).Success?
    ensures |t.sent| == 1 ==>
      && t.sent[0].verb == verb && t.sent[0].path == DocumentsWriteUrl(uid, pk, encode)
      && !t.sent[0].body.JsonPayload?
      && (text != "" ==>
            t.sent[0].body == RawContent(JStr(text)) && t.sent[0].headers == [("Content-Type", RawContentType(name).value)])
      && (text == "" ==> t.sent[0].body.NoBody? && t.sent[0].headers == [])
      && t.result == TaskOf(ex)
    ensures |t.sent| <= 1
  {
    if !fileExists then Trace([], Failure(MeiliSearchError("No file found at the specified path")))
    else match RawContentType(name)
      case Failure(e) => Trace([], Failure(e))
      case Success(contentType) =>
        Trace([RawRequest(verb, DocumentsWriteUrl(uid, pk, encode), text, contentType)], TaskOf(ex))
  }

  /** The file text as the send routine dispatches it under a non-JSON
      content type: raw content with that header, or no body at all for an
      empty file. */
  function RawRequest(verb: Verb, path: string, text: string, contentType: string): (r: Request)
    requires contentType != JsonContentType
    ensures r.verb == verb && r.path == path && !r.body.JsonPayload?
    ensures text != "" ==> r.body == RawContent(JStr(text)) && r.headers == [("Content-Type", contentType)]
    ensures text == "" ==> r.body.NoBody? && r.headers == []
  {
    BuildRequest(verb, path, JStr(text), contentType)
  }

  // ---------------------------------------------------------------------
  // Settings.

  /** `get_settings`: one GET of the settings route. A reply holding the
      alias dump of some settings gives those settings back; a reply that
      is not an object cannot be unpacked. */
  function GetSettings(uid: Json, ex: Exchange): (t: Trace<MeiliSearchSettings>)
    ensures |t.sent| == 1 && t.sent[0].verb == GET && t.sent[0].path == SettingsUrl(uid) && t.sent[0].body.NoBody?
    ensures forall s :: ReadBody(ex) == Success(SettingsJson(s)) ==> t.result == Success(s)
    ensures ReadBody(ex).Success? && !ReadBody(ex).value.JObj? ==>
      t.result == Failure(Builtin(TypeError, "argument after ** must be a mapping"))
    ensures ReadBody(ex).Success? ==> t.result == SettingsOf(ReadBody(ex).value)
    ensures ReadBody(ex).Failure? ==> t.result == Failure(ReadBody(ex).error)
  {
    assert forall s :: ReadBody(ex) == Success(SettingsJson(s)) ==> SettingsOf(ReadBody(ex).value) == Success(s) by {
      forall s | ReadBody(ex) == Success(SettingsJson(s)) ensures SettingsOf(ReadBody(ex).value) == Success(s) {
        SettingsRoundTrip(s);
      }
    }
    Trace([SettingsRequest(SettingsUrl(uid), Read)], var body :- ReadBody(ex); SettingsOf(body))
  }

  /** `update_settings`: the alias dict without its top-level `null`
      entries. */
  function UpdateSettings(uid: Json, s: MeiliSearchSettings, ex: Exchange): (t: Trace<Json>)
    ensures |t.sent| == 1 && t.sent[0].verb == POST && t.sent[0].path == SettingsUrl(uid)
    ensures s == DefaultSettings <==> t.sent[0].body.NoBody?
    ensures s != DefaultSettings ==> t.sent[0].body.JsonPayload? && SettingsOf(SentPayload(t.sent[0])) == Success(s)
    ensures t.result == TaskOf(ex)
  {
    UpdateSettingsBodyEmpty(s);
    UpdateSettingsBodyRoundTrip(s);
    Trace([SettingsRequest(SettingsUrl(uid), Update(UpdateSettingsBody(s)))], TaskOf(ex))
  }

  /** Settings with at least one field set are posted as JSON, and a server
      that stores and returns exactly that body gives the same settings
      back to `get_settings`. Settings with nothing set go out with no body
      at all. */
  lemma UpdateThenGetSettings(uid: Json, s: MeiliSearchSettings, ex: Exchange)
    ensures var posted := UpdateSettings(uid, s, ex).sent[0];
      && (s == DefaultSettings <==> posted.body.NoBody?)
      && (s != DefaultSettings ==>
            && posted.body.JsonPayload?
            && GetSettings(uid, Responded(Response(200, JsonText(SentPayload(posted))), "OK")).result == Success(s))
  {
    UpdateSettingsBodyEmpty(s);
    UpdateSettingsBodyRoundTrip(s);
  }

  /** `reset_settings`. */
  function ResetSettings(uid: Json, ex: Exchange): (t: Trace<Json>)
    ensures t.sent == [SettingsRequest(SettingsUrl(uid), Reset)]
    ensures t.sent[0].verb == DELETE && t.sent[0].body.NoBody?
    ensures t.result == TaskOf(ex)
  {
    Trace([SettingsRequest(SettingsUrl(uid), Reset)], TaskOf(ex))
  }

  /** The getters that turn an empty reply into `None`. */
  predicate EmptyMeansNone(r: SettingsResource) {
    r in {StopWords, Synonyms, FilterableAttributes, DistinctAttribute}
  }

  /** The getter of a list or string settings resource. Stop words,
      synonyms, filterable attributes and the distinct attribute give `None`
      for an empty reply; the others return the reply as it is. */
  function GetSetting(uid: Json, r: SettingsResource, ex: Exchange): (t: Trace<Json>)
    requires r != TypoToleranceSetting
    ensures t.sent == [SettingsRequest(ResourceUrl(uid, r), Read)]
    ensures ReadBody(ex).Success? && EmptyMeansNone(r) ==> t.result == Success(EmptyAsNone(ReadBody(ex).value))
    ensures ReadBody(ex).Success? && !EmptyMeansNone(r) ==> t.result == Success(ReadBody(ex).value)
    ensures ReadBody(ex).Failure? ==> t.result == Failure(ReadBody(ex).error)
  {
    var result :=
      var body :- ReadBody(ex);
      Success(if EmptyMeansNone(r) then EmptyAsNone(body) else body);
    Trace([SettingsRequest(ResourceUrl(uid, r), Read)], result)
  }

  /** `get_distinct_attribute` as written: the `None` of its empty-reply
      branch is evaluated and dropped, so the reply is returned as it is. */
  function GetDistinctAttributeAsWritten(uid: Json, ex: Exchange): (t: Trace<Json>)
    ensures t.sent == [SettingsRequest(ResourceUrl(uid, DistinctAttribute), Read)]
    ensures ReadBody(ex).Success? ==> t.result == Success(ReadBody(ex).value)
    ensures ReadBody(ex).Failure? ==> t.result == Failure(ReadBody(ex).error)
  {
    Trace([SettingsRequest(ResourceUrl(uid, DistinctAttribute), Read)], ReadBody(ex))
  }

  /** An empty-string reply shows the difference: as written the getter
      returns `""`, where the sibling getters' convention gives `None`. The
      two agree on every other reply. */
  lemma DistinctAttributeEmptyReply(uid: Json, ex: Exchange)
    ensures ReadBody(ex) == Success(JStr("")) ==>
      && GetDistinctAttributeAsWritten(uid, ex).result == Success(JStr(""))
      && GetSetting(uid, DistinctAttribute, ex).result == Success(JNull)
    ensures ReadBody(ex).Success? && (Truthy(ReadBody(ex).value) || ReadBody(ex).value == JNull) ==>
      GetDistinctAttributeAsWritten(uid, ex) == GetSetting(uid, DistinctAttribute, ex)
  {
  }

  /** `update_<resource>`: the new value is posted as JSON to the
      resource's own route; a falsy value goes out with no body. */
  function UpdateSetting(uid: Json, r: SettingsResource, body: Json, ex: Exchange): (t: Trace<Json>)
    ensures |t.sent| == 1 && t.sent[0].verb == POST && t.sent[0].path == ResourceUrl(uid, r)
    ensures Truthy(body) ==> t.sent[0].body == JsonPayload(body)
    ensures !Truthy(body) ==> t.sent[0].body.NoBody?
    ensures t.result == TaskOf(ex)
  {
    Trace([SettingsRequest(ResourceUrl(uid, r), Update(body))], TaskOf(ex))
  }

  /** `reset_<resource>`. */
  function ResetSetting(uid: Json, r: SettingsResource, ex: Exchange): (t: Trace<Json>)
    ensures |t.sent| == 1 && t.sent[0].verb == DELETE && t.sent[0].path == ResourceUrl(uid, r)
    ensures t.sent[0].body.NoBody?
    ensures t.result == TaskOf(ex)
  {
    Trace([SettingsRequest(ResourceUrl(uid, r), Reset)], TaskOf(ex))
  }

  /** `get_typo_tolerance`: one GET of the typo-tolerance route. A reply
      holding the alias dump of a record gives that record back. */
  function GetTypoTolerance(uid: Json, ex: Exchange): (t: Trace<TypoTolerance>)
    ensures |t.sent| == 1 && t.sent[0].verb == GET && t.sent[0].path == ResourceUrl(uid, TypoToleranceSetting)
    ensures t.sent[0].body.NoBody?
    ensures forall tt :: ReadBody(ex) == Success(TypoToleranceJson(tt)) ==> t.result == Success(tt)
    ensures ReadBody(ex).Success? && !ReadBody(ex).value.JObj? ==>
      t.result == Failure(Builtin(TypeError, "argument after ** must be a mapping"))
    ensures ReadBody(ex).Success? ==> t.result == TypoToleranceOf(ReadBody(ex).value)
    ensures ReadBody(ex).Failure? ==> t.result == Failure(ReadBody(ex).error)
  {
    assert forall tt :: ReadBody(ex) == Success(TypoToleranceJson(tt)) ==> TypoToleranceOf(ReadBody(ex).value) == Success(tt) by {
      forall tt | ReadBody(ex) == Success(TypoToleranceJson(tt)) ensures TypoToleranceOf(ReadBody(ex).value) == Success(tt) {
        TypoToleranceRoundTrip(tt);
      }
    }
    Trace([SettingsRequest(ResourceUrl(uid, TypoToleranceSetting), Read)], var body :- ReadBody(ex); TypoToleranceOf(body))
  }

  /** `update_typo_tolerance` posts the full alias dict, `null` entries
      included; a server that returns it unchanged gives the same record
      back. */
  lemma UpdateThenGetTypoTolerance(uid: Json, t: TypoTolerance, ex: Exchange)
    ensures var posted := UpdateSetting(uid, TypoToleranceSetting, TypoToleranceJson(t), ex).sent[0];
      && posted.body == JsonPayload(TypoToleranceJson(t))
      && GetTypoTolerance(uid, Responded(Response(200, JsonText(SentPayload(posted))), "OK")).result == Success(t)
  {
    TypoToleranceRoundTrip(t);
  }
}

=== FILE: json.dfy ===
/** JSON values as the client sees them after `response.json()`, together with
    the Python behaviour the client applies to them: truthiness (`not x`),
    `dict.get` / `dict[k]` lookup and `str(x)` rendering. Python's `None` is
    `JNull`. Floating-point numbers are not modelled. */
module JsonValues {
  import opened Wrappers
  import opened Strings

  datatype Json =
    | JNull
    | JBool(b: bool)
    | JInt(i: int)
    | JStr(s: string)
    | JArr(items: seq<Json>)
    | JObj(fields: seq<(string, Json)>)

  /** Python truthiness: `None`, `False`, `0`, `""`, `[]` and `{}` are falsy. */
  predicate Truthy(j: Json) {
    match j
    case JNull => false
    case JBool(b) => b
    case JInt(i) => i != 0
    case JStr(s) => s != ""
    case JArr(items) => |items| > 0
    case JObj(fields) => |fields| > 0
  }

  /** Value bound to `key` in an object's fields; when a key repeats the last
      binding wins, as it does when `json.loads` builds a dict. */
  function Lookup(fields: seq<(string, Json)>, key: string): (r: Option<Json>)
    ensures r.Some? <==> exists i :: 0 <= i < |fields| && fields[i].0 == key
    ensures r.Some? ==> exists i :: 0 <= i < |fields| && fields[i] == (key, r.value)
  {
    if |fields| == 0 then None
    else if fields[|fields| - 1].0 == key then Some(fields[|fields| - 1].1)
    else
      var r := Lookup(fields[..|fields| - 1], key);
      assert forall i :: 0 <= i < |fields| - 1 ==> fields[..|fields| - 1][i] == fields[i];
      r
  }

  /** No key is bound twice, as in every dict Python serialises. */
  predicate DistinctKeys(fields: seq<(string, Json)>) {
    forall i, j :: 0 <= i < j < |fields| ==> fields[i].0 != fields[j].0
  }

  /** With distinct keys, lookup finds exactly the field that holds the key. */
  lemma LookupDistinct(fields: seq<(string, Json)>, i: nat)
    requires DistinctKeys(fields) && i < |fields|
    ensures Lookup(fields, fields[i].0) == Some(fields[i].1)
  {
  }

  /** `d.get(key)` on an object; `None` for any other value. */
  function Get(j: Json, key: string): Option<Json> {
    if j.JObj? then Lookup(j.fields, key) else None
  }

  /** The keys of an object's fields, in order. */
  function Keys(fields: seq<(string, Json)>): (r: seq<string>)
    ensures |r| == |fields|
    ensures forall i :: 0 <= i < |fields| ==> r[i] == fields[i].0
  {
    seq(|fields|, i requires 0 <= i < |fields| => fields[i].0)
  }

  /** `repr(x)` of a value nested inside a list or dict. String escaping is
      not modelled: a string is shown between single quotes as it is. */
  function Repr(j: Json): string
    decreases j, 1
  {
    match j
    case JStr(s) => "'" + s + "'"
    case _ => PyStr(j)
  }

  /** `str(x)` / `f"{x}"` of a value: a string is shown as it is. */
  function PyStr(j: Json): string
    decreases j, 0
  {
    match j
    case JNull => "None"
    case JBool(b) => if b then "True" else "False"
    case JInt(i) => IntToString(i)
    case JStr(s) => s
    case JArr(items) =>
      "[" + Join(", ", seq(|items|, k requires 0 <= k < |items| => Repr(items[k]))) + "]"
    case JObj(fields) =>
      "{" + Join(", ", seq(|fields|, k requires 0 <= k < |fields| =>
        assert fields[k].1 < fields[k];
        "'" + fields[k].0 + "': " + Repr(fields[k].1))) + "}"
  }
}

=== FILE: settings.dfy ===
/** The index settings records: every field optional, serialised by the
    camelCase alias of its name (`stop_words` as "stopWords"), and rebuilt
    from a JSON object by keyword arguments. A missing key and a `null`
    value both leave an optional field unset; a value of the wrong JSON type
    is a validation error. */
module Settings {
  import opened Wrappers
  import opened JsonValues
  import opened Errors

  datatype MinWordSizeForTypos = MinWordSizeForTypos(oneTypo: Option<int>, twoTypos: Option<int>)

  datatype TypoTolerance = TypoTolerance(
    enabled: bool,
    disableOnAttributes: Option<seq<string>>,
    disableOnWords: Option<seq<string>>,
    minWordSizeForTypos: Option<MinWordSizeForTypos>)

  datatype MeiliSearchSettings = MeiliSearchSettings(
    synonyms: Option<seq<(string, Json)>>,
    stopWords: Option<seq<string>>,
    rankingRules: Option<seq<string>>,
    filterableAttributes: Option<seq<string>>,
    distinctAttribute: Option<string>,
    searchableAttributes: Option<seq<string>>,
    displayedAttributes: Option<seq<string>>,
    sortableAttributes: Option<seq<string>>,
    typoTolerance: Option<TypoTolerance>)

  /** The records built with no arguments. */
  const DefaultMinWordSizeForTypos := MinWordSizeForTypos(None, None)
  const DefaultTypoTolerance := TypoTolerance(true, None, None, None)
  const DefaultSettings := MeiliSearchSettings(None, None, None, None, None, None, None, None, None)

  // ---------------------------------------------------------------------
  // Serialisation: `.dict(by_alias=True)`; an unset field becomes `null`.

  function StrListJson(xs: seq<string>): (r: Json)
    ensures r.JArr? && |r.items| == |xs|
    ensures forall i :: 0 <= i < |xs| ==> r.items[i] == JStr(xs[i])
  {
    JArr(seq(|xs|, i requires 0 <= i < |xs| => JStr(xs[i])))
  }

  function OptStrListJson(o: Option<seq<string>>): Json {
    match o
    case None => JNull
    case Some(xs) => StrListJson(xs)
  }

  function OptStrJson(o: Option<string>): Json {
    match o
    case None => JNull
    case Some(s) => JStr(s)
  }

  function OptIntJson(o: Option<int>): Json {
    match o
    case None => JNull
    case Some(i) => JInt(i)
  }

  function OptDictJson(o: Option<seq<(string, Json)>>): Json {
    match o
    case None => JNull
    case Some(fs) => JObj(fs)
  }

  function MinWordSizeJson(m: MinWordSizeForTypos): Json {
    JObj([("oneTypo", OptIntJson(m.oneTypo)), ("twoTypos", OptIntJson(m.twoTypos))])
  }

  function TypoToleranceJson(t: TypoTolerance): Json {
    JObj([
      ("enabled", JBool(t.enabled)),
      ("disableOnAttributes", OptStrListJson(t.disableOnAttributes)),
      ("disableOnWords", OptStrListJson(t.disableOnWords)),
      ("minWordSizeForTypos", match t.minWordSizeForTypos case None => JNull case Some(m) => MinWordSizeJson(m))
    ])
  }

  function OptTypoToleranceJson(o: Option<TypoTolerance>): Json {
    match o
    case None => JNull
    case Some(t) => TypoToleranceJson(t)
  }

  /** The aliases, in the order the fields are declared. */
  const SettingsKeys := [
    "synonyms", "stopWords", "rankingRules", "filterableAttributes", "distinctAttribute",
    "searchableAttributes", "displayedAttributes", "sortableAttributes", "typoTolerance"]

  function SettingsFields(s: MeiliSearchSettings): (r: seq<(string, Json)>)
    ensures Keys(r) == SettingsKeys
  {
    [
      ("synonyms", OptDictJson(s.synonyms)),
      ("stopWords", OptStrListJson(s.stopWords)),
      ("rankingRules", OptStrListJson(s.rankingRules)),
      ("filterableAttributes", OptStrListJson(s.filterableAttributes)),
      ("distinctAttribute", OptStrJson(s.distinctAttribute)),
      ("searchableAttributes", OptStrListJson(s.searchableAttributes)),
      ("displayedAttributes", OptStrListJson(s.displayedAttributes)),
      ("sortableAttributes", OptStrListJson(s.sortableAttributes)),
      ("typoTolerance", OptTypoToleranceJson(s.typoTolerance))
    ]
  }

  /** `settings.dict(by_alias=True)`. */
  function SettingsJson(s: MeiliSearchSettings): Json {
    JObj(SettingsFields(s))
  }

  /** The fields of an object whose value is not `null`, in order. */
  function DropNulls(fields: seq<(string, Json)>): (r: seq<(string, Json)>)
    ensures |r| <= |fields|
    ensures forall i :: 0 <= i < |r| ==> r[i].1 != JNull && r[i] in fields
  {
    if |fields| == 0 then []
    else
      var last := fields[|fields| - 1];
      var init := DropNulls(fields[..|fields| - 1]);
      if last.1 == JNull then init else init + [last]
  }

  /** The body `update_settings` posts: the alias dict without its
      top-level `null` entries. Nested records keep theirs. */
  function UpdateSettingsBody(s: MeiliSearchSettings): Json {
    JObj(DropNulls(SettingsFields(s)))
  }

  // ---------------------------------------------------------------------
  // Validation: building a record from a JSON object.

  /** The value a keyword argument supplies to an optional field: a missing
      key and an explicit `null` both supply nothing. */
  function Present(fields: seq<(string, Json)>, key: string): (r: Option<Json>)
    ensures r.Some? ==> r.value != JNull && Lookup(fields, key) == r
    ensures r.None? ==> Lookup(fields, key).None? || Lookup(fields, key) == Some(JNull)
  {
    match Lookup(fields, key)
    case None => None
    case Some(v) => if v == JNull then None else Some(v)
  }

  function Invalid(key: string, expected: string): Error {
    Builtin(ValidationError, key + ": " + expected)
  }

  function StrListOf(items: seq<Json>): (r: Option<seq<string>>)
    ensures r.Some? <==> forall i :: 0 <= i < |items| ==> items[i].JStr?
    ensures r.Some? ==> |r.value| == |items| && forall i :: 0 <= i < |items| ==> items[i] == JStr(r.value[i])
  {
    if |items| == 0 then Some([])
    else if !items[|items| - 1].JStr? then None
    else match StrListOf(items[..|items| - 1])
      case None => None
      case Some(init) => Some(init + [items[|items| - 1].s])
  }

  function ReadStrList(fields: seq<(string, Json)>, key: string): Result<Option<seq<string>>, Error> {
    match Present(fields, key)
    case None => Success(None)
    case Some(v) =>
      if !v.JArr? then Failure(Invalid(key, "value is not a valid list"))
      else match StrListOf(v.items)
        case None => Failure(Invalid(key, "str type expected"))
        case Some(xs) => Success(Some(xs))
  }

  function ReadStr(fields: seq<(string, Json)>, key: string): Result<Option<string>, Error> {
    match Present(fields, key)
    case None => Success(None)
    case Some(v) => if v.JStr? then Success(Some(v.s)) else Failure(Invalid(key, "str type expected"))
  }

  function ReadInt(fields: seq<(string, Json)>, key: string): Result<Option<int>, Error> {
    match Present(fields, key)
    case None => Success(None)
    case Some(v) => if v.JInt? then Success(Some(v.i)) else Failure(Invalid(key, "value is not a valid integer"))
  }

  function ReadDict(fields: seq<(string, Json)>, key: string): Result<Option<seq<(string, Json)>>, Error> {
    match Present(fields, key)
    case None => Success(None)
    case Some(v) => if v.JObj? then Success(Some(v.fields)) else Failure(Invalid(key, "value is not a valid dict"))
  }

  function MinWordSizeFromFields(fields: seq<(string, Json)>): Result<MinWordSizeForTypos, Error> {
    var oneTypo :- ReadInt(fields, "oneTypo");
    var twoTypos :- ReadInt(fields, "twoTypos");
    Success(MinWordSizeForTypos(oneTypo, twoTypos))
  }

  /** `enabled` is not optional: a missing key takes the default `True`,
      while an explicit `null` is rejected. */
  function ReadEnabled(fields: seq<(string, Json)>): Result<bool, Error> {
    match Lookup(fields, "enabled")
    case None => Success(true)
    case Some(v) => if v.JBool? then Success(v.b) else Failure(Invalid("enabled", "value could not be parsed to a boolean"))
  }

  function TypoToleranceFromFields(fields: seq<(string, Json)>): Result<TypoTolerance, Error> {
    var enabled :- ReadEnabled(fields);
    var onAttributes :- ReadStrList(fields, "disableOnAttributes");
    var onWords :- ReadStrList(fields, "disableOnWords");
    var minWordSize :- ReadMinWordSize(fields);
    Success(TypoTolerance(enabled, onAttributes, onWords, minWordSize))
  }

  function ReadMinWordSize(fields: seq<(string, Json)>): Result<Option<MinWordSizeForTypos>, Error> {
    match Present(fields, "minWordSizeForTypos")
    case None => Success(None)
    case Some(v) =>
      if !v.JObj? then Failure(Invalid("minWordSizeForTypos", "value is not a valid dict"))
      else
        var m :- MinWordSizeFromFields(v.fields);
        Success(Some(m))
  }

  function ReadTypoTolerance(fields: seq<(string, Json)>): Result<Option<TypoTolerance>, Error> {
    match Present(fields, "typoTolerance")
    case None => Success(None)
    case Some(v) =>
      if !v.JObj? then Failure(Invalid("typoTolerance", "value is not a valid dict"))
      else
        var t :- TypoToleranceFromFields(v.fields);
        Success(Some(t))
  }

  /** The settings record from its nine validated fields; the first field
      in declaration order that failed validation is reported. */
  function Assemble(
    synonyms: Result<Option<seq<(string, Json)>>, Error>,
    stopWords: Result<Option<seq<string>>, Error>,
    rankingRules: Result<Option<seq<string>>, Error>,
    filterable: Result<Option<seq<string>>, Error>,
    distinct: Result<Option<string>, Error>,
    searchable: Result<Option<seq<string>>, Error>,
    displayed: Result<Option<seq<string>>, Error>,
    sortable: Result<Option<seq<string>>, Error>,
    typo: Result<Option<TypoTolerance>, Error>): Result<MeiliSearchSettings, Error>
  {
    var a :- synonyms;
    var b :- stopWords;
    var c :- rankingRules;
    var d :- filterable;
    var e :- distinct;
    var f :- searchable;
    var g :- displayed;
    var h :- sortable;
    var i :- typo;
    Success(MeiliSearchSettings(a, b, c, d, e, f, g, h, i))
  }

  function SettingsFromFields(fields: seq<(string, Json)>): Result<MeiliSearchSettings, Error> {
    Assemble(
      ReadDict(fields, "synonyms"),
      ReadStrList(fields, "stopWords"),
      ReadStrList(fields, "rankingRules"),
      ReadStrList(fields, "filterableAttributes"),
      ReadStr(fields, "distinctAttribute"),
      ReadStrList(fields, "searchableAttributes"),
      ReadStrList(fields, "displayedAttributes"),
      ReadStrList(fields, "sortableAttributes"),
      ReadTypoTolerance(fields))
  }

  /** `Model(**body)`: a body that is not an object cannot be unpacked into
      keyword arguments. */
  function Unpack<T>(body: Json, build: seq<(string, Json)> -> Result<T, Error>): Result<T, Error> {
    if body.JObj? then build(body.fields)
    else Failure(Builtin(TypeError, "argument after ** must be a mapping"))
  }

  /** `MeiliSearchSettings(**response.json())`, as `get_settings` does. */
  function SettingsOf(body: Json): (r: Result<MeiliSearchSettings, Error>)
    ensures !body.JObj? ==> r.Failure? && r.error == Builtin(TypeError, "argument after ** must be a mapping")
  {
    Unpack(body, SettingsFromFields)
  }

  /** `TypoTolerance(**response.json())`, as `get_typo_tolerance` does. */
  function TypoToleranceOf(body: Json): (r: Result<TypoTolerance, Error>)
    ensures !body.JObj? ==> r.Failure? && r.error == Builtin(TypeError, "argument after ** must be a mapping")
  {
    Unpack(body, TypoToleranceFromFields)
  }

  // ---------------------------------------------------------------------
  // Properties.

  /** Built from no keyword arguments, every settings field is unset and
      typo tolerance is enabled with nothing else set. */
  lemma Defaults()
    ensures SettingsOf(JObj([])) == Success(DefaultSettings)
    ensures TypoToleranceOf(JObj([])) == Success(DefaultTypoTolerance)
    ensures MinWordSizeFromFields([]) == Success(DefaultMinWordSizeForTypos)
  {
  }

  lemma StrListRoundTrip(xs: seq<string>)
    ensures StrListOf(StrListJson(xs).items) == Some(xs)
  {
    var r := StrListOf(StrListJson(xs).items);
    assert r.Some?;
    assert r.value == xs;
  }

  lemma OptStrListRoundTrip(fields: seq<(string, Json)>, key: string, o: Option<seq<string>>)
    requires Lookup(fields, key) == Some(OptStrListJson(o))
    ensures ReadStrList(fields, key) == Success(o)
  {
    if o.Some? {
      StrListRoundTrip(o.value);
    }
  }

  /** Dumping a minimum-word-size record by alias and rebuilding it gives
      it back. */
  lemma MinWordSizeRoundTrip(m: MinWordSizeForTypos)
    ensures MinWordSizeFromFields(MinWordSizeJson(m).fields) == Success(m)
  {
    var fields := MinWordSizeJson(m).fields;
    assert DistinctKeys(fields);
    LookupDistinct(fields, 0);
    LookupDistinct(fields, 1);
  }

  /** Dumping a typo-tolerance record by alias and rebuilding it gives it
      back. */
  lemma TypoToleranceRoundTrip(t: TypoTolerance)
    ensures TypoToleranceOf(TypoToleranceJson(t)) == Success(t)
  {
    var fields := TypoToleranceJson(t).fields;
    TypoToleranceLookups(t);
    assert ReadEnabled(fields) == Success(t.enabled);
    OptStrListRoundTrip(fields, "disableOnAttributes", t.disableOnAttributes);
    OptStrListRoundTrip(fields, "disableOnWords", t.disableOnWords);
    ReadMinWordSizeRoundTrip(t);
  }

  lemma ReadMinWordSizeRoundTrip(t: TypoTolerance)
    ensures ReadMinWordSize(TypoToleranceJson(t).fields) == Success(t.minWordSizeForTypos)
  {
    TypoToleranceLookups(t);
    if t.minWordSizeForTypos.Some? {
      MinWordSizeRoundTrip(t.minWordSizeForTypos.value);
    }
  }

  /** Each alias of a dumped typo-tolerance record holds its own field. */
  lemma TypoToleranceLookups(t: TypoTolerance)
    ensures Lookup(TypoToleranceJson(t).fields, "enabled") == Some(JBool(t.enabled))
    ensures Lookup(TypoToleranceJson(t).fields, "disableOnAttributes") == Some(OptStrListJson(t.disableOnAttributes))
    ensures Lookup(TypoToleranceJson(t).fields, "disableOnWords") == Some(OptStrListJson(t.disableOnWords))
    ensures Lookup(TypoToleranceJson(t).fields, "minWordSizeForTypos") == Some(TypoToleranceJson(t).fields[3].1)
  {
    var fields := TypoToleranceJson(t).fields;
    assert DistinctKeys(fields);
    LookupDistinct(fields, 0);
    LookupDistinct(fields, 1);
    LookupDistinct(fields, 2);
    LookupDistinct(fields, 3);
  }

  lemma SettingsKeysDistinct(s: MeiliSearchSettings)
    ensures DistinctKeys(SettingsFields(s))
  {
    var fields := SettingsFields(s);
    forall i, j | 0 <= i < j < |fields| ensures fields[i].0 != fields[j].0 {
      assert fields[i].0 == SettingsKeys[i] && fields[j].0 == SettingsKeys[j];
    }
  }

  /** Dumping settings by alias and rebuilding them from that dict, as a
      read after an update does, gives the same settings. */
  lemma SettingsRoundTrip(s: MeiliSearchSettings)
    ensures SettingsOf(SettingsJson(s)) == Success(s)
  {
    var fields := SettingsFields(s);
    SettingsLookups(s);
    OptStrListRoundTrip(fields, "stopWords", s.stopWords);
    OptStrListRoundTrip(fields, "rankingRules", s.rankingRules);
    OptStrListRoundTrip(fields, "filterableAttributes", s.filterableAttributes);
    OptStrListRoundTrip(fields, "searchableAttributes", s.searchableAttributes);
    OptStrListRoundTrip(fields, "displayedAttributes", s.displayedAttributes);
    OptStrListRoundTrip(fields, "sortableAttributes", s.sortableAttributes);
    OptDictRoundTrip(fields, "synonyms", s.synonyms);
    OptStrRoundTrip(fields, "distinctAttribute", s.distinctAttribute);
    OptTypoToleranceRoundTrip(fields, s.typoTolerance);
  }

  lemma OptDictRoundTrip(fields: seq<(string, Json)>, key: string, o: Option<seq<(string, Json)>>)
    requires Lookup(fields, key) == Some(OptDictJson(o))
    ensures ReadDict(fields, key) == Success(o)
  {
  }

  lemma OptStrRoundTrip(fields: seq<(string, Json)>, key: string, o: Option<string>)
    requires Lookup(fields, key) == Some(OptStrJson(o))
    ensures ReadStr(fields, key) == Success(o)
  {
  }

  lemma OptTypoToleranceRoundTrip(fields: seq<(string, Json)>, o: Option<TypoTolerance>)
    requires Lookup(fields, "typoTolerance") == Some(OptTypoToleranceJson(o))
    ensures ReadTypoTolerance(fields) == Success(o)
  {
    if o.Some? {
      TypoToleranceRoundTrip(o.value);
    }
  }

  /** Each alias of the dumped settings holds its own field's value. */
  lemma SettingsLookups(s: MeiliSearchSettings)
    ensures Lookup(SettingsFields(s), "synonyms") == Some(OptDictJson(s.synonyms))
    ensures Lookup(SettingsFields(s), "stopWords") == Some(OptStrListJson(s.stopWords))
    ensures Lookup(SettingsFields(s), "rankingRules") == Some(OptStrListJson(s.rankingRules))
    ensures Lookup(SettingsFields(s), "filterableAttributes") == Some(OptStrListJson(s.filterableAttributes))
    ensures Lookup(SettingsFields(s), "distinctAttribute") == Some(OptStrJson(s.distinctAttribute))
    ensures Lookup(SettingsFields(s), "searchableAttributes") == Some(OptStrListJson(s.searchableAttributes))
    ensures Lookup(SettingsFields(s), "displayedAttributes") == Some(OptStrListJson(s.displayedAttributes))
    ensures Lookup(SettingsFields(s), "sortableAttributes") == Some(OptStrListJson(s.sortableAttributes))
    ensures Lookup(SettingsFields(s), "typoTolerance") == Some(OptTypoToleranceJson(s.typoTolerance))
  {
    var fields := SettingsFields(s);
    SettingsKeysDistinct(s);
    LookupDistinct(fields, 0);
    LookupDistinct(fields, 1);
    LookupDistinct(fields, 2);
    LookupDistinct(fields, 3);
    LookupDistinct(fields, 4);
    LookupDistinct(fields, 5);
    LookupDistinct(fields, 6);
    LookupDistinct(fields, 7);
    LookupDistinct(fields, 8);
  }

  /** Dropping `null` entries from an object with distinct keys changes no
      key's supplied value. */
  lemma {:induction false} PresentDropNulls(fields: seq<(string, Json)>, key: string)
    requires DistinctKeys(fields)
    ensures Present(DropNulls(fields), key) == Present(fields, key)
    decreases |fields|
  {
    if |fields| > 0 {
      var init := fields[..|fields| - 1];
      var last := fields[|fields| - 1];
      assert DistinctKeys(init);
      PresentDropNulls(init, key);
      if last.0 == key {
        forall i | 0 <= i < |init| ensures init[i].0 != key {
          assert fields[i].0 != fields[|fields| - 1].0;
        }
        if last.1 != JNull {
          assert Lookup(DropNulls(init) + [last], key) == Some(last.1);
        } else {
          forall k | 0 <= k < |DropNulls(init)| ensures DropNulls(init)[k].0 != key {
            assert DropNulls(init)[k] in init;
          }
        }
      } else if last.1 != JNull {
        var dropped := DropNulls(init) + [last];
        assert dropped[..|dropped| - 1] == DropNulls(init);
      }
    }
  }

  /** Dropping `null` entries leaves nothing exactly when every entry is
      `null`. */
  lemma {:induction false} DropNullsEmpty(fields: seq<(string, Json)>)
    ensures |DropNulls(fields)| == 0 <==> forall i :: 0 <= i < |fields| ==> fields[i].1 == JNull
    decreases |fields|
  {
    if |fields| > 0 {
      var init := fields[..|fields| - 1];
      DropNullsEmpty(init);
      assert forall i :: 0 <= i < |init| ==> init[i] == fields[i];
    }
  }

  /** The update body is empty, and so falsy, exactly when no setting is
      set; the request then goes out with no body at all. */
  lemma UpdateSettingsBodyEmpty(s: MeiliSearchSettings)
    ensures Truthy(UpdateSettingsBody(s)) <==> s != DefaultSettings
  {
    var fields := SettingsFields(s);
    DropNullsEmpty(fields);
    if s != DefaultSettings {
      assert exists i :: 0 <= i < |fields| && fields[i].1 != JNull by {
        if s.synonyms.Some? { assert fields[0].1 != JNull; }
        else if s.stopWords.Some? { assert fields[1].1 != JNull; }
        else if s.rankingRules.Some? { assert fields[2].1 != JNull; }
        else if s.filterableAttributes.Some? { assert fields[3].1 != JNull; }
        else if s.distinctAttribute.Some? { assert fields[4].1 != JNull; }
        else if s.searchableAttributes.Some? { assert fields[5].1 != JNull; }
        else if s.displayedAttributes.Some? { assert fields[6].1 != JNull; }
        else if s.sortableAttributes.Some? { assert fields[7].1 != JNull; }
        else { assert fields[8].1 != JNull; }
      }
    }
  }

  /** The update body sends exactly the settings that are set: each alias
      carries its value when the field is set and is absent otherwise, and
      no entry is `null`. */
  lemma UpdateSettingsBodyKeepsSetFields(s: MeiliSearchSettings, key: string)
    ensures forall i :: 0 <= i < |UpdateSettingsBody(s).fields| ==> UpdateSettingsBody(s).fields[i].1 != JNull
    ensures Present(UpdateSettingsBody(s).fields, key) == Present(SettingsFields(s), key)
  {
    SettingsKeysDistinct(s);
    PresentDropNulls(SettingsFields(s), key);
  }

  /** Rebuilding settings from the update body gives the settings back:
      leaving out the unset fields loses nothing. */
  lemma UpdateSettingsBodyRoundTrip(s: MeiliSearchSettings)
    ensures SettingsOf(UpdateSettingsBody(s)) == Success(s)
  {
    var fields := SettingsFields(s);
    SettingsKeysDistinct(s);
    PresentDropNulls(fields, "synonyms");
    PresentDropNulls(fields, "stopWords");
    PresentDropNulls(fields, "rankingRules");
    PresentDropNulls(fields, "filterableAttributes");
    PresentDropNulls(fields, "distinctAttribute");
    PresentDropNulls(fields, "searchableAttributes");
    PresentDropNulls(fields, "displayedAttributes");
    PresentDropNulls(fields, "sortableAttributes");
    PresentDropNulls(fields, "typoTolerance");
    SameReads(fields, DropNulls(fields));
    SettingsRoundTrip(s);
  }

  /** Two objects that supply the same value for a key read that key
      alike, whatever type the field expects. */
  lemma ReadsAgree(a: seq<(string, Json)>, b: seq<(string, Json)>, key: string)
    requires Present(a, key) == Present(b, key)
    ensures ReadDict(a, key) == ReadDict(b, key)
    ensures ReadStrList(a, key) == ReadStrList(b, key)
    ensures ReadStr(a, key) == ReadStr(b, key)
    ensures key == "typoTolerance" ==> ReadTypoTolerance(a) == ReadTypoTolerance(b)
  {
  }

  /** Two objects that supply the same value for each alias validate to the
      same settings. */
  lemma SameReads(a: seq<(string, Json)>, b: seq<(string, Json)>)
    requires Present(a, "synonyms") == Present(b, "synonyms")
    requires Present(a, "stopWords") == Present(b, "stopWords")
    requires Present(a, "rankingRules") == Present(b, "rankingRules")
    requires Present(a, "filterableAttributes") == Present(b, "filterableAttributes")
    requires Present(a, "distinctAttribute") == Present(b, "distinctAttribute")
    requires Present(a, "searchableAttributes") == Present(b, "searchableAttributes")
    requires Present(a, "displayedAttributes") == Present(b, "displayedAttributes")
    requires Present(a, "sortableAttributes") == Present(b, "sortableAttributes")
    requires Present(a, "typoTolerance") == Present(b, "typoTolerance")
    ensures SettingsFromFields(a) == SettingsFromFields(b)
  {
    ReadsAgree(a, b, "synonyms");
    ReadsAgree(a, b, "stopWords");
    ReadsAgree(a, b, "rankingRules");
    ReadsAgree(a, b, "filterableAttributes");
    ReadsAgree(a, b, "distinctAttribute");
    ReadsAgree(a, b, "searchableAttributes");
    ReadsAgree(a, b, "displayedAttributes");
    ReadsAgree(a, b, "sortableAttributes");
    ReadsAgree(a, b, "typoTolerance");
  }
}

=== FILE: strings.dfy ===
/** The few pieces of Python string behaviour the client relies on:
    decimal rendering of integers, `sep.join`, the `in` substring test,
    `str.find` for one character and the clamping slice `s[:n]`. */
module Strings {
  import opened Wrappers

  function Min(a: int, b: int): int {
    if a <= b then a else b
  }

  predicate IsDigit(c: char) {
    '0' <= c <= '9'
  }

  predicate AllDigits(s: string) {
    forall i :: 0 <= i < |s| ==> IsDigit(s[i])
  }

  function DigitChar(d: nat): (c: char)
    requires d < 10
    ensures IsDigit(c)
    ensures (c as int) - ('0' as int) == d
  {
    ['0', '1', '2', '3', '4', '5', '6', '7', '8', '9'][d]
  }

  /** The value of a string of decimal digits (most significant first). */
  function DigitsValue(s: string): nat
    requires AllDigits(s)
  {
    if |s| == 0 then 0
    else 10 * DigitsValue(s[..|s| - 1]) + ((s[|s| - 1] as int) - ('0' as int))
  }

  /** `str(n)` for a natural number: the shortest decimal rendering. */
  function NatToString(n: nat): (r: string)
    ensures AllDigits(r)
    ensures |r| > 0
    ensures DigitsValue(r) == n
    ensures |r| > 1 ==> r[0] != '0'
  {
    if n < 10 then [DigitChar(n)]
    else
      var prefix := NatToString(n / 10);
      var r := prefix + [DigitChar(n % 10)];
      assert r[..|r| - 1] == prefix;
      r
  }

  /** `str(i)` for a Python int. */
  function IntToString(i: int): string {
    if i < 0 then "-" + NatToString(-i) else NatToString(i)
  }

  /** `sep.join(parts)`. */
  function Join(sep: string, parts: seq<string>): string {
    if |parts| == 0 then ""
    else if |parts| == 1 then parts[0]
    else parts[0] + sep + Join(sep, parts[1..])
  }

  /** Python's `sub in s`. */
  predicate IsSubstring(sub: string, s: string)
    decreases |s|
  {
    || (|sub| <= |s| && s[..|sub|] == sub)
    || (|s| > 0 && IsSubstring(sub, s[1..]))
  }

  /** Index of the first occurrence of `c` in `s`, as `s.find(c)` but with
      `None` for Python's `-1`. */
  function IndexOf(s: string, c: char): (r: Option<nat>)
    ensures r.Some? ==> r.value < |s| && s[r.value] == c
    ensures r.Some? ==> forall j :: 0 <= j < r.value ==> s[j] != c
    ensures r.None? ==> forall j :: 0 <= j < |s| ==> s[j] != c
  {
    if |s| == 0 then None
    else if s[0] == c then Some(0)
    else match IndexOf(s[1..], c)
      case None => None
      case Some(k) => Some(k + 1)
  }

  /** `s.find(c)` is the position of the first `c`. */
  lemma IndexOfFirst(s: string, c: char, k: nat)
    requires k < |s| && s[k] == c
    requires forall j :: 0 <= j < k ==> s[j] != c
    ensures IndexOf(s, c) == Some(k)
  {
  }

  /** Python's `s[:n]` for any integer `n`: a negative `n` counts from the end
      and both ends are clamped to the string. */
  function SliceTo(s: string, n: int): (r: string)
    ensures n >= 0 ==> r == s[..if n <= |s| then n else |s|]
    ensures n < 0 ==> r == s[..if |s| + n >= 0 then |s| + n else 0]
  {
    var end := if n >= 0 then n else |s| + n;
    var clamped := if end < 0 then 0 else if end > |s| then |s| else end;
    s[..clamped]
  }

  /** `s.split(c)` for a one-character separator: the pieces between the
      separators, in order; there is always at least one. */
  function Split(s: string, c: char): (r: seq<string>)
    ensures |r| >= 1
    ensures |r| >= 2 <==> c in s
    ensures forall k :: 0 <= k < |r| ==> c !in r[k]
    ensures Join([c], r) == s
    decreases |s|
  {
    match IndexOf(s, c)
    case None => [s]
    case Some(k) =>
      var rest := Split(s[k + 1..], c);
      var r := [s[..k]] + rest;
      assert r[1..] == rest;
      assert s == s[..k] + [c] + s[k + 1..];
      r
  }

  /** Splitting joined pieces at their separator gives the pieces back, when
      no piece holds the separator. */
  lemma {:induction false} SplitJoin(parts: seq<string>, c: char)
    requires |parts| >= 1
    requires forall k :: 0 <= k < |parts| ==> c !in parts[k]
    ensures Split(Join([c], parts), c) == parts
    decreases |parts|
  {
    if |parts| == 1 {
      assert Join([c], parts) == parts[0];
      assert IndexOf(parts[0], c).None?;
    } else {
      var rest := parts[1..];
      assert Join([c], parts) == parts[0] + [c] + Join([c], rest);
      SplitAtFirst(parts[0], c, Join([c], rest));
      SplitJoin(rest, c);
      assert parts == [parts[0]] + rest;
    }
  }

  /** A piece free of the separator is split off first. */
  lemma SplitAtFirst(p: string, c: char, tail: string)
    requires c !in p
    ensures Split(p + [c] + tail, c) == [p] + Split(tail, c)
  {
    var s := p + [c] + tail;
    var k := |p|;
    assert s[k] == c;
    forall j | 0 <= j < k ensures s[j] != c {
      assert s[j] == p[j];
    }
    IndexOfFirst(s, c, k);
    assert s[..k] == p;
    assert s[k + 1..] == tail;
  }

  /** Index of the last occurrence of `c` in `s`, as `s.rfind(c)` but with
      `None` for Python's `-1`. */
  function LastIndexOf(s: string, c: char): (r: Option<nat>)
    ensures r.Some? ==> r.value < |s| && s[r.value] == c
    ensures r.Some? ==> forall j :: r.value < j < |s| ==> s[j] != c
    ensures r.None? ==> forall j :: 0 <= j < |s| ==> s[j] != c
  {
    if |s| == 0 then None
    else if s[|s| - 1] == c then Some(|s| - 1)
    else LastIndexOf(s[..|s| - 1], c)
  }
}

=== FILE: timestamps.dfy ===
/** Reading the timestamps the server sends (`createdAt`, `updatedAt`) into
    date-times. The parse is `datetime.strptime` with the single format
    "%Y-%m-%dT%H:%M:%S.%fZ", restricted to zero-padded fields; when it
    fails, the fraction is shortened and the text parsed again. */
module Timestamps {
  import opened Wrappers
  import opened Strings
  import opened Errors

  datatype DateTime = DateTime(
    year: int, month: int, day: int,
    hour: int, minute: int, second: int, microsecond: int)

  /** What the conversion is handed: nothing, a date-time already, or text. */
  datatype DateInput =
    | NoDate
    | Given(dt: DateTime)
    | Text(s: string)

  /** Python truthiness of the argument: `None` and `""` are falsy, every
      `datetime` is truthy. */
  predicate TruthyInput(d: DateInput) {
    match d
    case NoDate => false
    case Given(_) => true
    case Text(s) => s != ""
  }

  predicate IsLeapYear(y: int) {
    y % 4 == 0 && (y % 100 != 0 || y % 400 == 0)
  }

  function DaysInMonth(y: int, m: int): int
    requires 1 <= m <= 12
  {
    if m == 2 then (if IsLeapYear(y) then 29 else 28)
    else if m == 4 || m == 6 || m == 9 || m == 11 then 30
    else 31
  }

  /** The ranges the `datetime` constructor accepts. */
  predicate Valid(dt: DateTime) {
    && 1 <= dt.year <= 9999
    && 1 <= dt.month <= 12
    && 1 <= dt.day <= DaysInMonth(dt.year, dt.month)
    && 0 <= dt.hour <= 23
    && 0 <= dt.minute <= 59
    && 0 <= dt.second <= 59
    && 0 <= dt.microsecond <= 999999
  }

  function Pow10(n: nat): (r: nat)
    ensures r >= 1
  {
    if n == 0 then 1 else 10 * Pow10(n - 1)
  }

  /** `%f`: one to six digits, read as if padded with zeros on the right. */
  function FractionValue(f: string): nat
    requires AllDigits(f) && |f| <= 6
  {
    DigitsValue(f) * Pow10(6 - |f|)
  }

  const Format := "%Y-%m-%dT%H:%M:%S.%fZ"

  /** `datetime.strptime(s, "%Y-%m-%dT%H:%M:%S.%fZ")` for zero-padded
      fields. The directive regex is case-insensitive, so the literal `T` and
      `Z` also match `t` and `z`. `None` stands for the `ValueError` raised
      when the text does not match or names a date-time that does not
      exist. */
  function StrpTime(s: string): (r: Option<DateTime>)
    ensures r.Some? ==> Valid(r.value)
    ensures r.Some? ==> 22 <= |s| <= 27 && s[19] == '.'
  {
    if !(22 <= |s| <= 27) then None
    else if !(s[19] == '.' && (s[|s| - 1] == 'Z' || s[|s| - 1] == 'z') && AllDigits(s[20..|s| - 1])) then None
    else match DateFields(s[..19])
      case None => None
      case Some(date) =>
        var dt := date.(microsecond := FractionValue(s[20..|s| - 1]));
        if Valid(dt) then Some(dt) else None
  }

  /** "%Y-%m-%dT%H:%M:%S" read from a text of 19 characters, before any
      range check; the microseconds are left at zero. */
  function DateFields(h: string): Option<DateTime>
    requires |h| == 19
  {
    if !(&& h[4] == '-' && h[7] == '-' && (h[10] == 'T' || h[10] == 't')
         && h[13] == ':' && h[16] == ':') then None
    else if !(&& AllDigits(h[..4]) && AllDigits(h[5..7]) && AllDigits(h[8..10])
              && AllDigits(h[11..13]) && AllDigits(h[14..16]) && AllDigits(h[17..19])) then None
    else
      Some(DateTime(
        DigitsValue(h[..4]), DigitsValue(h[5..7]), DigitsValue(h[8..10]),
        DigitsValue(h[11..13]), DigitsValue(h[14..16]), DigitsValue(h[17..19]), 0))
  }

  /** `n` in exactly `w` decimal digits, zero-padded on the left. */
  function Pad(n: nat, w: nat): (r: string)
    requires n < Pow10(w)
    ensures |r| == w && AllDigits(r) && DigitsValue(r) == n
  {
    if w == 0 then ""
    else
      var prefix := Pad(n / 10, w - 1);
      var r := prefix + [DigitChar(n % 10)];
      assert r[..|r| - 1] == prefix;
      r
  }

  /** "YYYY-MM-DDTHH:MM:SS", the part of the format before the fraction. */
  function DatePart(dt: DateTime): (r: string)
    requires Valid(dt)
    ensures |r| == 19
  {
    DateHalf(dt) + TimeHalf(dt)
  }

  /** "YYYY-MM-DD". */
  function DateHalf(dt: DateTime): (r: string)
    requires Valid(dt)
    ensures |r| == 10
  {
    Pad(dt.year, 4) + "-" + Pad(dt.month, 2) + "-" + Pad(dt.day, 2)
  }

  /** "THH:MM:SS". */
  function TimeHalf(dt: DateTime): (r: string)
    requires Valid(dt)
    ensures |r| == 9
  {
    "T" + Pad(dt.hour, 2) + ":" + Pad(dt.minute, 2) + ":" + Pad(dt.second, 2)
  }


  /** The date-time written in the format itself, with six fraction digits. */
  function IsoFormat(dt: DateTime): string
    requires Valid(dt)
  {
    DatePart(dt) + "." + Pad(dt.microsecond, 6) + "Z"
  }

  function ParseError(t: string): Error {
    Builtin(ValueError, "time data '" + t + "' does not match format '" + Format + "'")
  }

  /** The second parse of the fallback path. */
  function Reparse(t: string): (r: Result<Option<DateTime>, Error>)
    ensures r.Success? <==> StrpTime(t).Some?
    ensures r.Success? ==> r.value == StrpTime(t)
  {
    match StrpTime(t)
    case Some(dt) => Success(Some(dt))
    case None => Failure(ParseError(t))
  }

  /** `Index._iso_to_date_time` as written. When the direct parse fails the
      text is split on ".", and of the piece after the first "." it keeps
      `piece[:-reduce]` with `reduce = len(piece) - 6`. For a piece longer
      than six characters that is its first six; for a piece of six or
      fewer it is something else (the empty string, or `6 - len(piece)`
      characters). A text without "." raises `IndexError`. */
  function IsoToDateTimeAsWritten(d: DateInput): (r: Result<Option<DateTime>, Error>)
    ensures !TruthyInput(d) ==> r == Success(None)
    ensures d.Given? ==> r == Success(Some(d.dt))
    ensures d.Text? && StrpTime(d.s).Some? ==> r == Success(StrpTime(d.s))
    ensures r.Success? && r.value.Some? && d.Text? ==> Valid(r.value.value)
  {
    match d
    case NoDate => Success(None)
    case Given(dt) => Success(Some(dt))
    case Text(s) =>
      if s == "" then Success(None)
      else if StrpTime(s).Some? then Success(StrpTime(s))
      else
        var split := Split(s, '.');
        if |split| < 2 then Failure(Builtin(IndexError, "list index out of range"))
        else
          var reduce := |split[1]| - 6;
          Reparse(split[0] + "." + SliceTo(split[1], -reduce) + "Z")
  }

  /** The conversion as its documentation describes it: when the direct
      parse fails, the piece after the first "." is cut to its first six
      characters. The rest of the model uses this definition. */
  function IsoToDateTime(d: DateInput): (r: Result<Option<DateTime>, Error>)
    ensures !TruthyInput(d) ==> r == Success(None)
    ensures d.Given? ==> r == Success(Some(d.dt))
    ensures d.Text? && StrpTime(d.s).Some? ==> r == Success(StrpTime(d.s))
    ensures r.Success? && r.value.Some? && d.Text? ==> Valid(r.value.value)
    ensures d.Text? && d.s != "" && '.' !in d.s ==> r == Failure(Builtin(IndexError, "list index out of range"))
    ensures r.Failure? ==> r.error.Builtin? && (r.error.kind == IndexError || r.error.kind == ValueError)
  {
    match d
    case NoDate => Success(None)
    case Given(dt) => Success(Some(dt))
    case Text(s) =>
      if s == "" then Success(None)
      else if StrpTime(s).Some? then Success(StrpTime(s))
      else
        var split := Split(s, '.');
        if |split| < 2 then Failure(Builtin(IndexError, "list index out of range"))
        else
          Reparse(split[0] + "." + split[1][..Min(6, |split[1]|)] + "Z")
  }

  // ---------------------------------------------------------------------
  // Arithmetic facts about fractions.

  lemma DigitsValueBound(s: string)
    requires AllDigits(s)
    ensures DigitsValue(s) < Pow10(|s|)
    decreases |s|
  {
    if |s| > 0 {
      DigitsValueBound(s[..|s| - 1]);
    }
  }

  lemma Pow10Add(a: nat, b: nat)
    ensures Pow10(a) * Pow10(b) == Pow10(a + b)
    decreases a
  {
    if a > 0 {
      Pow10Add(a - 1, b);
      assert Pow10(a) * Pow10(b) == 10 * (Pow10(a - 1) * Pow10(b));
    }
  }

  lemma MulMono(x: int, y: int, m: int)
    requires 0 <= x <= y && m >= 0
    ensures x * m <= y * m
  {
    assert y * m - x * m == (y - x) * m;
  }

  /** Every `%f` field gives a valid microsecond count. */
  lemma {:induction false} FractionBound(f: string)
    requires AllDigits(f) && |f| <= 6
    ensures FractionValue(f) <= 999999
  {
    DigitsValueBound(f);
    MulMono(DigitsValue(f), Pow10(|f|) - 1, Pow10(6 - |f|));
    Pow10Add(|f|, 6 - |f|);
    assert (Pow10(|f|) - 1) * Pow10(6 - |f|) == Pow10(|f|) * Pow10(6 - |f|) - Pow10(6 - |f|);
    assert Pow10(6) == 1000000;
  }

  // ---------------------------------------------------------------------
  // Parsing what the format writes.

  /** Where each field sits in the date part. */
  lemma {:induction false} DatePartShape(dt: DateTime)
    requires Valid(dt)
    ensures
      var h := DatePart(dt);
      && h[..4] == Pad(dt.year, 4) && h[4] == '-'
      && h[5..7] == Pad(dt.month, 2) && h[7] == '-'
      && h[8..10] == Pad(dt.day, 2) && h[10] == 'T'
      && h[11..13] == Pad(dt.hour, 2) && h[13] == ':'
      && h[14..16] == Pad(dt.minute, 2) && h[16] == ':'
      && h[17..19] == Pad(dt.second, 2)
      && forall k :: 0 <= k < 19 ==> h[k] != '.'
  {
    var y, mo, d := Pad(dt.year, 4), Pad(dt.month, 2), Pad(dt.day, 2);
    var hh, mi, se := Pad(dt.hour, 2), Pad(dt.minute, 2), Pad(dt.second, 2);
    var left, right := DateHalf(dt), TimeHalf(dt);
    DateHalfShape(y, mo, d);
    TimeHalfShape(hh, mi, se);
    JoinedShape(left, right);
  }

  /** "YYYY-MM-DD" from its padded fields. */
  lemma DateHalfShape(y: string, mo: string, d: string)
    requires |y| == 4 && |mo| == 2 && |d| == 2 && AllDigits(y) && AllDigits(mo) && AllDigits(d)
    ensures var l := y + "-" + mo + "-" + d;
      && |l| == 10 && l[..4] == y && l[4] == '-' && l[5..7] == mo && l[7] == '-' && l[8..10] == d
      && forall k :: 0 <= k < 10 ==> l[k] != '.'
  {
    var l := y + "-" + mo + "-" + d;
    assert l[..4] == y;
    assert l[5..7] == mo;
    assert l[8..10] == d;
    forall k | 0 <= k < 10 ensures l[k] != '.' {
      if k < 4 { assert l[k] == y[k]; }
      else if 5 <= k < 7 { assert l[k] == mo[k - 5]; }
      else if 8 <= k { assert l[k] == d[k - 8]; }
    }
  }

  /** "THH:MM:SS" from its padded fields. */
  lemma TimeHalfShape(hh: string, mi: string, se: string)
    requires |hh| == 2 && |mi| == 2 && |se| == 2 && AllDigits(hh) && AllDigits(mi) && AllDigits(se)
    ensures var r := "T" + hh + ":" + mi + ":" + se;
      && |r| == 9 && r[0] == 'T' && r[1..3] == hh && r[3] == ':' && r[4..6] == mi && r[6] == ':' && r[7..9] == se
      && forall k :: 0 <= k < 9 ==> r[k] != '.'
  {
    var r := "T" + hh + ":" + mi + ":" + se;
    assert r[1..3] == hh;
    assert r[4..6] == mi;
    assert r[7..9] == se;
    forall k | 0 <= k < 9 ensures r[k] != '.' {
      if 1 <= k < 3 { assert r[k] == hh[k - 1]; }
      else if 4 <= k < 6 { assert r[k] == mi[k - 4]; }
      else if 7 <= k { assert r[k] == se[k - 7]; }
    }
  }

  /** Slices of the date half and the time half survive their joining. */
  lemma JoinedShape(l: string, r: string)
    requires |l| == 10 && |r| == 9
    ensures var h := l + r;
      && h[..4] == l[..4] && h[4] == l[4] && h[5..7] == l[5..7] && h[7] == l[7] && h[8..10] == l[8..10]
      && h[10] == r[0] && h[11..13] == r[1..3] && h[13] == r[3] && h[14..16] == r[4..6] && h[16] == r[6]
      && h[17..19] == r[7..9]
      && forall k :: 0 <= k < 19 ==> h[k] == (if k < 10 then l[k] else r[k - 10])
  {
    var h := l + r;
    assert h[..4] == l[..4];
    assert h[5..7] == l[5..7];
    assert h[8..10] == l[8..10];
    assert h[11..13] == r[1..3];
    assert h[14..16] == r[4..6];
    assert h[17..19] == r[7..9];
  }

  /** The pieces of a text laid out as the format lays it out. */
  lemma {:induction false} PartsOfLayout(dt: DateTime, f: string, z: char)
    requires Valid(dt)
    ensures
      var s := DatePart(dt) + "." + f + [z];
      && |s| == 21 + |f|
      && s[..19] == DatePart(dt) && s[19] == '.'
      && s[20..|s| - 1] == f && s[|s| - 1] == z
      && s[20..] == f + [z]
  {
    var h := DatePart(dt);
    var s := h + "." + f + [z];
    assert s[..19] == h;
    assert s[20..|s| - 1] == f;
    assert s[20..] == f + [z];
  }

  /** The date part the format writes reads back to its fields. */
  lemma {:induction false} DateFieldsOfDatePart(dt: DateTime)
    requires Valid(dt)
    ensures DateFields(DatePart(dt)) == Some(dt.(microsecond := 0))
  {
    DatePartShape(dt);
  }

  /** A text in the layout of the format, with one to six fraction digits,
      parses to the date-time it spells out. */
  lemma {:induction false} StrpTimeOfLayout(dt: DateTime, f: string)
    requires Valid(dt) && 1 <= |f| <= 6 && AllDigits(f)
    ensures FractionValue(f) <= 999999
    ensures StrpTime(DatePart(dt) + "." + f + "Z") == Some(dt.(microsecond := FractionValue(f)))
  {
    PartsOfLayout(dt, f, 'Z');
    DateFieldsOfDatePart(dt);
    FractionBound(f);
  }

  /** Round trip: the text the format writes for a date-time parses back to
      that date-time. */
  lemma {:induction false} StrpTimeOfIsoFormat(dt: DateTime)
    requires Valid(dt)
    ensures StrpTime(IsoFormat(dt)) == Some(dt)
    ensures IsoToDateTime(Text(IsoFormat(dt))) == Success(Some(dt))
  {
    var f := Pad(dt.microsecond, 6);
    StrpTimeOfLayout(dt, f);
    assert FractionValue(f) == dt.microsecond;
    assert dt.(microsecond := dt.microsecond) == dt;
  }

  /** The pieces `split(".")` makes of a text in the format's layout. */
  lemma {:induction false} SplitOfLayout(dt: DateTime, f: string, z: char)
    requires Valid(dt) && '.' !in f && z != '.'
    ensures
      var split := Split(DatePart(dt) + "." + f + [z], '.');
      |split| == 2 && split[0] == DatePart(dt) && split[1] == f + [z]
  {
    var h := DatePart(dt);
    DatePartNoDot(dt);
    assert '.' !in f + [z] by {
      forall j | 0 <= j < |f| + 1 ensures (f + [z])[j] != '.' {
        if j < |f| { assert (f + [z])[j] == f[j]; }
      }
    }
    assert h + "." + f + [z] == h + "." + (f + [z]);
    SplitAtOnlyDot(h, f + [z]);
  }

  lemma DatePartNoDot(dt: DateTime)
    requires Valid(dt)
    ensures '.' !in DatePart(dt)
  {
    var l, r := DateHalf(dt), TimeHalf(dt);
    DateHalfShape(Pad(dt.year, 4), Pad(dt.month, 2), Pad(dt.day, 2));
    TimeHalfShape(Pad(dt.hour, 2), Pad(dt.minute, 2), Pad(dt.second, 2));
    assert DatePart(dt) == l + r;
    forall k | 0 <= k < 19 ensures (l + r)[k] != '.' {
      if k < 10 { assert (l + r)[k] == l[k]; } else { assert (l + r)[k] == r[k - 10]; }
    }
  }

  /** A text with a single dot splits into the parts around it. */
  lemma SplitAtOnlyDot(a: string, b: string)
    requires '.' !in a && '.' !in b
    ensures Split(a + "." + b, '.') == [a, b]
  {
    var s := a + "." + b;
    forall j | 0 <= j < |a| ensures s[j] != '.' {
      assert s[j] == a[j];
    }
    IndexOfFirst(s, '.', |a|);
    assert s[..|a|] == a;
    assert s[|a| + 1..] == b;
    assert IndexOf(b, '.').None?;
  }

  lemma DigitsHaveNoDot(f: string)
    requires AllDigits(f)
    ensures '.' !in f
  {
  }

  /** The conversion keeps the first six fraction digits and drops the rest
      without rounding: a fraction of any length (as the server may send
      nanoseconds) gives the microseconds its first six digits spell. */
  lemma {:induction false} TruncatesFraction(dt: DateTime, f: string)
    requires Valid(dt) && 1 <= |f| && AllDigits(f)
    ensures
      var kept := f[..Min(6, |f|)];
      && FractionValue(kept) <= 999999
      && IsoToDateTime(Text(DatePart(dt) + "." + f + "Z"))
           == Success(Some(dt.(microsecond := FractionValue(kept))))
  {
    if |f| <= 6 {
      assert f[..Min(6, |f|)] == f;
      StrpTimeOfLayout(dt, f);
    } else {
      TruncatesLongFraction(dt, f);
    }
  }

  lemma TruncatesLongFraction(dt: DateTime, f: string)
    requires Valid(dt) && |f| > 6 && AllDigits(f)
    ensures IsoToDateTime(Text(DatePart(dt) + "." + f + "Z")) == Success(Some(dt.(microsecond := FractionValue(f[..6]))))
  {
    var s := DatePart(dt) + "." + f + "Z";
    assert StrpTime(s).None?;
    DigitsHaveNoDot(f);
    SplitOfLayout(dt, f, 'Z');
    assert (f + "Z")[..6] == f[..6];
    StrpTimeOfLayout(dt, f[..6]);
  }

  /** With more than six fraction digits and the closing "Z", the code as
      written does what its documentation says. */
  lemma {:induction false} AsWrittenTruncatesLongFractions(dt: DateTime, f: string)
    requires Valid(dt) && |f| > 6 && AllDigits(f)
    ensures IsoToDateTimeAsWritten(Text(DatePart(dt) + "." + f + "Z"))
      == IsoToDateTime(Text(DatePart(dt) + "." + f + "Z"))
  {
    var s := DatePart(dt) + "." + f + "Z";
    assert StrpTime(s).None?;
    DigitsHaveNoDot(f);
    SplitOfLayout(dt, f, 'Z');
    var piece := f + "Z";
    assert SliceTo(piece, -(|piece| - 6)) == piece[..6];
  }

  /** On the timestamps the server writes (digits of any length after the
      ".", then "Z"), the code as written and the corrected conversion give
      the same value: the first six digits as microseconds. */
  lemma {:induction false} AsWrittenAgreesOnServerText(dt: DateTime, f: string)
    requires Valid(dt) && 1 <= |f| && AllDigits(f)
    ensures
      var s := DatePart(dt) + "." + f + "Z";
      var kept := f[..Min(6, |f|)];
      && FractionValue(kept) <= 999999
      && IsoToDateTimeAsWritten(Text(s)) == IsoToDateTime(Text(s))
      && IsoToDateTime(Text(s)) == Success(Some(dt.(microsecond := FractionValue(kept))))
  {
    TruncatesFraction(dt, f);
    if |f| <= 6 {
      StrpTimeOfLayout(dt, f);
    } else {
      AsWrittenTruncatesLongFractions(dt, f);
    }
  }

  /** A text whose fraction lacks the closing "Z" fails the direct parse,
      and `split(".")` cuts it into the date part and the fraction. */
  lemma {:induction false} SplitWithoutZone(dt: DateTime, f: string)
    requires Valid(dt) && 1 <= |f| && AllDigits(f)
    ensures StrpTime(DatePart(dt) + "." + f).None?
    ensures Split(DatePart(dt) + "." + f, '.') == [DatePart(dt), f]
  {
    var s := DatePart(dt) + "." + f;
    var init, last := f[..|f| - 1], f[|f| - 1];
    assert f == init + [last];
    assert s == DatePart(dt) + "." + init + [last];
    PartsOfLayout(dt, init, last);
    DigitsHaveNoDot(f);
    assert '.' !in init;
    SplitOfLayout(dt, init, last);
  }

  /** Without the closing "Z", cutting the fraction to its first six digits
      and closing it reads the fraction as given. */
  lemma {:induction false} FractionWithoutZone(dt: DateTime, f: string)
    requires Valid(dt) && 1 <= |f| <= 6 && AllDigits(f)
    ensures FractionValue(f) <= 999999
    ensures IsoToDateTime(Text(DatePart(dt) + "." + f)) == Success(Some(dt.(microsecond := FractionValue(f))))
  {
    SplitWithoutZone(dt, f);
    assert f[..Min(6, |f|)] == f;
    StrpTimeOfLayout(dt, f);
  }

  /** Without the closing "Z", the code as written keeps `6 - len(f)` of
      the fraction's digits, and with six digits keeps none, so that its
      second parse fails. */
  lemma {:induction false} AsWrittenFractionWithoutZone(dt: DateTime, f: string)
    requires Valid(dt) && 1 <= |f| <= 6 && AllDigits(f)
    ensures |f| < 6 ==>
      var kept := f[..Min(6 - |f|, |f|)];
      && FractionValue(kept) <= 999999
      && IsoToDateTimeAsWritten(Text(DatePart(dt) + "." + f))
           == Success(Some(dt.(microsecond := FractionValue(kept))))
    ensures |f| == 6 ==>
      IsoToDateTimeAsWritten(Text(DatePart(dt) + "." + f)) == Failure(ParseError(DatePart(dt) + "." + "Z"))
  {
    AsWrittenReparses(dt, f);
    if |f| < 6 {
      var kept := f[..Min(6 - |f|, |f|)];
      assert SliceTo(f, -(|f| - 6)) == kept;
      StrpTimeOfLayout(dt, kept);
    } else {
      assert SliceTo(f, -(|f| - 6)) == "";
      NoFractionFails(dt);
    }
  }

  /** Without the closing "Z", the code as written goes on to its second
      parse, of the date part, a dot, the cut fraction and "Z". */
  lemma AsWrittenReparses(dt: DateTime, f: string)
    requires Valid(dt) && 1 <= |f| && AllDigits(f)
    ensures IsoToDateTimeAsWritten(Text(DatePart(dt) + "." + f))
      == Reparse(DatePart(dt) + "." + SliceTo(f, -(|f| - 6)) + "Z")
  {
    SplitWithoutZone(dt, f);
  }

  /** A text with no fraction digits at all does not match the format. */
  lemma NoFractionFails(dt: DateTime)
    requires Valid(dt)
    ensures Reparse(DatePart(dt) + "." + "" + "Z") == Failure(ParseError(DatePart(dt) + "." + "Z"))
  {
    assert DatePart(dt) + "." + "" + "Z" == DatePart(dt) + "." + "Z";
    assert |DatePart(dt) + "." + "Z"| == 21;
  }


  function DigitOf(c: char): int {
    (c as int) - ('0' as int)
  }

  lemma DigitsValueTwo(s: string)
    requires |s| == 2 && AllDigits(s)
    ensures DigitsValue(s) == 10 * DigitOf(s[0]) + DigitOf(s[1])
  {
    var p := s[..1];
    assert p[..0] == [];
    assert DigitsValue(p) == DigitOf(s[0]);
  }

  lemma {:induction false} DigitsValueAppend(a: string, b: string)
    requires AllDigits(a) && AllDigits(b)
    ensures AllDigits(a + b)
    ensures DigitsValue(a + b) == DigitsValue(a) * Pow10(|b|) + DigitsValue(b)
    decreases |b|
  {
    var ab := a + b;
    assert AllDigits(ab) by {
      forall i | 0 <= i < |ab| ensures IsDigit(ab[i]) {
        if i < |a| { assert ab[i] == a[i]; } else { assert ab[i] == b[i - |a|]; }
      }
    }
    if |b| == 0 {
      assert ab == a;
    } else {
      var b' := b[..|b| - 1];
      DigitsValueAppend(a, b');
      assert ab[..|ab| - 1] == a + b';
      var d := DigitOf(b[|b| - 1]);
      assert DigitsValue(ab) == 10 * DigitsValue(a + b') + d;
      assert DigitsValue(b) == 10 * DigitsValue(b') + d;
      MulTen(DigitsValue(a), Pow10(|b'|));
    }
  }

  lemma MulTen(x: int, p: int)
    ensures 10 * (x * p) == x * (10 * p)
  {
  }


  lemma NanosecondDigits(f: string)
    requires f == "563960100"
    ensures |f| == 9 && AllDigits(f) && FractionValue(f[..6]) == 563960
  {
    var kept := f[..6];
    assert kept == "56" + "39" + "60";
    DigitsValueTwo("56");
    DigitsValueTwo("39");
    DigitsValueTwo("60");
    DigitsValueAppend("56", "39");
    DigitsValueAppend("56" + "39", "60");
  }

  lemma ShortDigits(f: string)
    requires f == "1234"
    ensures |f| == 4 && AllDigits(f) && FractionValue(f[..2]) == 120000 && FractionValue(f) == 123400
  {
    assert f[..2] == "12" && f == "12" + "34";
    DigitsValueTwo("12");
    DigitsValueTwo("34");
    DigitsValueAppend("12", "34");
  }

  /** The fraction of the server's nanosecond timestamp in the source's
      own test case, "2021-05-11T03:12:22.563960100Z": after any date part,
      both definitions read 563960 microseconds. */
  lemma NanosecondExample(dt: DateTime, f: string)
    requires Valid(dt) && f == "563960100"
    ensures IsoToDateTime(Text(DatePart(dt) + "." + f + "Z")) == Success(Some(dt.(microsecond := 563960)))
    ensures IsoToDateTimeAsWritten(Text(DatePart(dt) + "." + f + "Z")) == Success(Some(dt.(microsecond := 563960)))
  {
    NanosecondDigits(f);
    TruncatesFraction(dt, f);
    AsWrittenTruncatesLongFractions(dt, f);
  }

  /** A fraction of "1234" without the closing "Z", as in
      "2021-05-11T03:12:22.1234": the code as written reads 120000
      microseconds, the documented behaviour 123400. */
  lemma ShortFractionExample(dt: DateTime, f: string)
    requires Valid(dt) && f == "1234"
    ensures IsoToDateTimeAsWritten(Text(DatePart(dt) + "." + f)) == Success(Some(dt.(microsecond := 120000)))
    ensures IsoToDateTime(Text(DatePart(dt) + "." + f)) == Success(Some(dt.(microsecond := 123400)))
  {
    ShortDigits(f);
    FractionWithoutZone(dt, f);
    AsWrittenFractionWithoutZone(dt, f);
  }
}

=== FILE: wire.dfy ===
/** What the HTTP transport hands back to the client, as plain values: a
    response (status code and body bytes) or the exception the transport
    raised instead. Every remote reply in the model is one of these values,
    passed in by the caller. */
module Wire {
  import opened JsonValues

  /** The body bytes of a response: empty, valid JSON, or something that
      `response.json()` cannot decode. */
  datatype Content =
    | Empty
    | JsonText(value: Json)
    | NotJson(text: string)

  datatype Response = Response(status: int, content: Content)

  /** Exceptions the transport can raise before any response exists. The
      first three are the classes the request wrapper singles out; the
      fourth is any other `httpx.HTTPError` (a read timeout, say); the last
      is an exception outside the `HTTPError` family. */
  datatype Fault =
    | ConnectError(text: string)
    | ConnectTimeout(text: string)
    | RemoteProtocolError(text: string)
    | OtherHttpError(text: string)
    | NotHttpError(text: string)

  /** One request/response exchange: the server answered (with the text the
      transport's status-check exception would carry), or the transport
      failed. */
  datatype Exchange =
    | Responded(response: Response, statusText: string)
    | Failed(fault: Fault)

  /** Status codes `raise_for_status` rejects: client errors (4xx) and
      server errors (5xx), sections 15.5 and 15.6 of RFC 9110. */
  predicate IsErrorStatus(status: int) {
    400 <= status <= 599
  }
}

=== FILE: wrappers.dfy ===
/** Option and Result, the two failure-compatible wrappers the rest of the
    model uses: `Option` for Python's "value or None", `Result` for "value or
    raised exception". Both work with Dafny's `:-` operator. */
module Wrappers {

  datatype Option<+T> = None | Some(value: T) {

    predicate IsFailure() {
      None?
    }

    function PropagateFailure<U>(): Option<U>
      requires None?
    {
      None
    }

    function Extract(): T
      requires Some?
    {
      value
    }
  }

  datatype Result<+T, +E> = Success(value: T) | Failure(error: E) {

    predicate IsFailure() {
      Failure?
    }

    function PropagateFailure<U>(): Result<U, E>
      requires Failure?
    {
      Failure(error)
    }

    function Extract(): T
      requires Success?
    {
      value
    }
  }
}
